=== FILE: README.md ===
# Live cross-chain gas tracker — a Dafny model of its core

The gas tracker is a single-page dashboard. It shows synthetic gas fees for Ethereum,
Polygon and Arbitrum, refreshed every six seconds. Each chain keeps a rolling 20-point price
history. The dashboard simulates what sending a given amount of ETH would cost on each chain
and ranks the chains by that cost. This project models the core of that program as pure
Dafny functions and proves what the code promises about it:

- `numbers.dfy` (`Numbers`): `parseFloat(x.toFixed(2))` as exact rounding to cents, and
  JavaScript division with its `NaN` and `±Infinity` results.
- `dict.dfy` (`Dict`): a JavaScript object as an insertion-ordered list of (key, value)
  pairs, which is how JavaScript orders keys that are not array indices. Lookup, `{...d, [k]: v}` and `Object.keys` are defined on it, with their laws.
- `gas_data_service.dfy` (`GasDataService`): the fee generator, the historical series, the
  per-network transaction cost, and the congestion classification.
- `mock_provider.dfy` (`MockWebSocketProvider`): the simulated connection as a state
  machine. Its `setTimeout` calls become a queue of pending timers, and a separate step
  fires them.
- `gas_tracker.dfy` (`GasTracker`): the dashboard's state and its updaters. These are the
  6-second tick through the 20-point window, the initial seeding, the inline simulation and
  the effect that reruns it in live mode.
- `cost_comparison.dfy` (`CostComparison`): the ranking of the simulation results by total
  cost, with the CHEAPEST flag.
- `gas_price_chart.dfy` (`GasPriceChart`): the enabled chains, the index-wise merge of the
  series into chart rows, and the latest point per chain.

Inputs that the program takes from its environment are explicit arguments of the model:

- `Math.random()` is passed in as draws in [0, 1). One reading consumes three of them, in
  call order: variation, priority tip, and block-number offset.
- `Date.now()` is passed in as a clock reading in milliseconds.
- `new Date(t).getHours()` is passed in as an hour, or as an hour-of-day function of the
  timestamp.
- `getMockEthUsdPrice()` is passed in as the new exchange rate.

Every number is an exact real. A rendered string (`toFixed`, `toLocaleTimeString`) is
represented by the number or timestamp it renders.

## What the code does, read closely

Some of the code's behaviour is not what its shape suggests. In each case the model follows
the code as written.

- The total fee is `Round2(base + priority)` of the *unrounded* components, not the sum of
  the two rounded fields. The two can differ by a cent
  (`GasDataService.TotalFeeMayDifferFromSumOfFields` gives a concrete case).
- `setTimeout(() => this.connect(), 2000 * this.reconnectAttempts)` reads as a growing
  backoff under a cap of `maxReconnectAttempts = 5`. But `connect()` resets
  `reconnectAttempts` to 0, and every reconnect goes through `connect()`. So the counter
  never passes 1, the cap never binds, and the backoff is always 2000 ms
  (`MockWebSocketProvider.Reachable`, `MockWebSocketProvider.CapNeverBinds`).
- `connect()` sets the connected flag at once, before its `connected` event is delivered.
  `disconnect()` does not cancel a pending reconnect or connected timer.
- A reading takes three `Math.random()` draws (`GasDataService.js` lines 55, 63 and 71):
  the variation, the priority tip, and the block-number offset.
- The 0.1 floor of the priority fee never binds, because a base fee of at least 1 already
  gives a tip of at least 0.1 (`GasDataService.RawPriorityFee`).
- The inline simulation prices every chain in `currentPrices`. It uses a fixed 21000 gas
  limit and never consults the network table. On the configured chains it agrees with
  `calculateTransactionCosts` (`GasTracker.SimulationAgreesWithService`).

## Model

| member | source | states |
|---|---|---|
| `Numbers.Round2` | gas-tracker/src/services/GasDataService.js:67-70 | `parseFloat(x.toFixed(2))` lands on whole cents, within half a cent of `x`, never negative for non-negative `x` |
| `Numbers.Round2AtLeast` | gas-tracker/src/services/GasDataService.js:62-68 | rounding to cents keeps any whole-cent lower bound, so the 1 and 0.1 floors survive rounding |
| `Numbers.Round2Monotone` | gas-tracker/src/services/GasDataService.js:67-70 | rounding to cents preserves order |
| `Numbers.Round2OfSum` | gas-tracker/src/services/GasDataService.js:67-70 | the rounded sum is within one cent of the sum of the rounded parts |
| `Numbers.Divide` | gas-tracker/src/services/GasDataService.js:143 | JavaScript division: finite exactly when the divisor is non-zero, with quotient times divisor equal to the dividend; `NaN` for 0/0 and `+Infinity` for a positive number over 0 |
| `Numbers.Max` | gas-tracker/src/services/GasDataService.js:62-63 | `Math.max` is an upper bound of both arguments and equals one of them |
| `Numbers.GreaterThan` | gas-tracker/src/services/GasDataService.js:166-167 | JavaScript `>` against a constant: false for `NaN` and `-Infinity`, true for `+Infinity`, the real order for finite numbers |
| `Dict.Keys` | gas-tracker/src/services/GasDataService.js:125 | `Object.keys` lists each entry's key at that entry's position |
| `Dict.Get` | gas-tracker/src/services/GasDataService.js:126 | `obj[k]` is defined exactly when `k` is a key |
| `Dict.Put` | gas-tracker/src/components/GasTracker.js:70-71 | `{ ...prev, [k]: v }` holds the entry `(k, v)`; it has one more entry than `prev` exactly when `k` was not a key of `prev` |
| `Dict.GetEntry` | gas-tracker/src/services/GasDataService.js:125-126 | in an object, looking up an entry's key yields that entry's value |
| `Dict.PutGet` | gas-tracker/src/components/GasTracker.js:59-77 | after `{...prev, [k]: v}` the key reads `v` and every other key reads as before |
| `Dict.PutKeys` | gas-tracker/src/components/GasTracker.js:59-77 | spreading keeps an existing key in place and appends a new one |
| `Dict.PutEntries` | gas-tracker/src/components/GasTracker.js:59-77 | every entry after spreading is the new one or an old one |
| `Dict.PutKeepsDistinct` | gas-tracker/src/components/GasTracker.js:59-77 | spreading never duplicates a key |
| `Dict.FilterMapInOrder` | gas-tracker/src/services/GasDataService.js:125-127 | skipping entries in an `Object.entries(...).forEach` that fills a fresh object keeps the surviving keys in their order |
| `GasDataService.TrackedChainsDistinct` | gas-tracker/src/components/GasTracker.js:54 | the tracked chain names `'ethereum'`, `'polygon'` and `'arbitrum'` are pairwise different |
| `GasDataService.Baseline` | gas-tracker/src/services/GasDataService.js:47 | `BASE_GAS_PRICES[chain] \|\| 10` is the table's price for a listed chain and 10 otherwise, always positive |
| `GasDataService.TrafficMultiplier` | gas-tracker/src/services/GasDataService.js:50-52 | the multiplier is 1.5 exactly in hours 8 to 22 inclusive, and 1 otherwise |
| `GasDataService.Variation` | gas-tracker/src/services/GasDataService.js:55-60 | the variation lies in [-10, 10) for ethereum and in [-5, 5) for the rest |
| `GasDataService.RawBaseFee` | gas-tracker/src/services/GasDataService.js:62 | the unrounded base fee is at least 1 and within the spread of baseline times multiplier |
| `GasDataService.RawPriorityFee` | gas-tracker/src/services/GasDataService.js:63 | the tip lies in [0.1·base, 0.1·base + 2), so the 0.1 floor never binds |
| `GasDataService.BaseGasPrice` | gas-tracker/src/services/GasDataService.js:10-16 | the base price table lists exactly ethereum, polygon, arbitrum, optimism and bsc, each at a positive price |
| `GasDataService.NetworkConfigOf` | gas-tracker/src/services/GasDataService.js:19-38 | the network table lists exactly ethereum, polygon and arbitrum, each with gas limit 21000 and each also in the base price table |
| `GasDataService.GenerateMockGasData` | gas-tracker/src/services/GasDataService.js:46-73 | a reading echoes chain and timestamp; base fee is at least 1 and tip at least 0.1, all in whole cents; base fee lies within half a cent of its interval; total is within a cent of base plus tip; block number lies in `[t/1000, t/1000 + 999]` |
| `GasDataService.TotalFeeMayDifferFromSumOfFields` | gas-tracker/src/services/GasDataService.js:67-70 | a concrete reading whose total fee is not the sum of its rounded fields |
| `GasDataService.GenerateHistoricalGasData` | gas-tracker/src/services/GasDataService.js:82-101 | `max(points, 0)` points, oldest first; the last is at `now` and they are spaced by `intervalMs`, so timestamps strictly ascend for a positive interval; point k is the reading generated from the k-th draws at its own timestamp |
| `GasDataService.CostFor` | gas-tracker/src/services/GasDataService.js:126-146 | gas in ETH is fee times gas limit over 1e9; gas USD is that times the rate; value USD is the value times the rate, and the total is value USD plus gas USD; efficiency is finite exactly when gas in ETH is non-zero, and then times gas in ETH gives the value; network name and color come from the config |
| `GasDataService.TotalCostIncreasesWithFee` | gas-tracker/src/services/GasDataService.js:129-134 | on the same network at a positive rate, a higher total fee gives a higher total cost |
| `GasDataService.CalculateTransactionCosts` | gas-tracker/src/services/GasDataService.js:122-150 | the result has exactly the configured chains among the inputs, in their input order, each with the cost of its own prices, and no key twice |
| `GasDataService.Classify` | gas-tracker/src/services/GasDataService.js:165-167 | high exactly when the ratio exceeds 2, medium exactly when it is in (1.5, 2], low otherwise (including `NaN`) |
| `GasDataService.ClassifyBoundaries` | gas-tracker/src/services/GasDataService.js:165-167 | the thresholds are strict: 1.5 is low, 1.51 medium, 2 still medium, 2.01 high, and `NaN` low |
| `GasDataService.AvgBlockTime` | gas-tracker/src/services/GasDataService.js:173 | 12 s for ethereum, 2 s for polygon, 1 s for every other chain |
| `GasDataService.StatusOf` | gas-tracker/src/services/GasDataService.js:160-174 | the ratio is the total fee over the base price, `NaN` for an unlisted chain; the advice is to wait exactly when congestion is high |
| `GasDataService.ArbitrumAtTwoGweiIsHigh` | gas-tracker/src/services/GasDataService.js:161-167 | arbitrum at a 2-gwei total is 2.5 times its base price, so it is classified high |
| `GasDataService.GetNetworkStatus` | gas-tracker/src/services/GasDataService.js:157-178 | one status per input chain, same keys in the same order, each computed from that chain's prices |
| `MockWebSocketProvider.New` | gas-tracker/src/services/MockWebSocketProvider.js:9-15 | a new provider is disconnected, with a zero counter, cap 5, no listeners and nothing pending |
| `MockWebSocketProvider.IsConnected` | gas-tracker/src/services/MockWebSocketProvider.js:71-73 | reports the connected flag |
| `MockWebSocketProvider.Connect` | gas-tracker/src/services/MockWebSocketProvider.js:17-31 | `connect()` sets the flag and clears the counter at once; it only appends one pending `connected` timer of 500–1500 ms and keeps the invariant |
| `MockWebSocketProvider.On` | gas-tracker/src/services/MockWebSocketProvider.js:33-35 | `on` appends the callback, even a duplicate, and changes nothing else |
| `MockWebSocketProvider.Broadcast` | gas-tracker/src/services/MockWebSocketProvider.js:43-48 | `listeners.forEach(l => l(e))`: one delivery per listener, in registration order, each of the same event |
| `MockWebSocketProvider.RemoveAll` | gas-tracker/src/services/MockWebSocketProvider.js:38 | the filter removes every occurrence of the callback and keeps every other listener's count |
| `MockWebSocketProvider.RemoveAllAppend` | gas-tracker/src/services/MockWebSocketProvider.js:38 | filtering distributes over concatenation, so survivors keep their order |
| `MockWebSocketProvider.RemoveAllAbsent` | gas-tracker/src/services/MockWebSocketProvider.js:38 | removing an unregistered callback changes nothing |
| `MockWebSocketProvider.Off` | gas-tracker/src/services/MockWebSocketProvider.js:37-39 | `off` drops every registration of the callback, keeps the other listeners in their order (the filter `RemoveAll`), and changes nothing else |
| `MockWebSocketProvider.Disconnect` | gas-tracker/src/services/MockWebSocketProvider.js:41-49 | unguarded: the flag drops, each listener hears `disconnected` once in order, and counter and timers are untouched |
| `MockWebSocketProvider.SimulateDisconnection` | gas-tracker/src/services/MockWebSocketProvider.js:52-69 | a no-op while disconnected; otherwise the flag drops and each listener hears one `error`; below the cap the counter rises by one and a reconnect is queued at 2000 × counter ms |
| `MockWebSocketProvider.Fire` | gas-tracker/src/services/MockWebSocketProvider.js:17-31 | a fired timer leaves the queue; a `connected` timer reaches the listeners registered when it fires; a reconnect timer calls `connect()`, which sets the flag, clears the counter, emits nothing yet and queues a new `connected` timer of 500–1500 ms; the invariant is kept |
| `MockWebSocketProvider.Apply` | gas-tracker/src/services/MockWebSocketProvider.js:17-73 | every method call and timer firing keeps the invariant |
| `MockWebSocketProvider.RunPreservesInv` | gas-tracker/src/services/MockWebSocketProvider.js:17-73 | any sequence of calls and firings keeps the invariant |
| `MockWebSocketProvider.Reachable` | gas-tracker/src/services/MockWebSocketProvider.js:13-19 | in every reachable state connected implies a zero counter, the counter stays at or below 1 and below the cap, and every pending reconnect waits 2000 ms |
| `MockWebSocketProvider.CapNeverBinds` | gas-tracker/src/services/MockWebSocketProvider.js:64-67 | from a reachable connected state a lost connection always takes the reconnect branch with a 2000 ms delay |
| `MockWebSocketProvider.LateListenerHearsConnected` | gas-tracker/src/services/MockWebSocketProvider.js:22-35 | a listener added after `connect()` but before the timer fires hears `connected` exactly once |
| `GasTracker.Initial` | gas-tracker/src/components/GasTracker.js:12-27 | the initial state has keys ethereum, polygon and arbitrum in both objects, an empty series and zero prices for each, a rate of 2400, live mode, a value of 0.5 and no results |
| `GasTracker.AppendWindow` | gas-tracker/src/components/GasTracker.js:61-67 | `[...prev.slice(-19), point]` grows a short series by one and caps a full one at 20; it ends with the new point after the most recent old points |
| `GasTracker.WindowKeepsMostRecent` | gas-tracker/src/components/GasTracker.js:59-68 | after any number of ticks the window is exactly the last 20 of all points appended, oldest first |
| `GasTracker.AppendIsWindow` | gas-tracker/src/components/GasTracker.js:61 | one append is the last 20 of the extended series |
| `GasTracker.WindowOfWindow` | gas-tracker/src/components/GasTracker.js:61 | windowing first and then extending and windowing is the same as extending and windowing |
| `GasTracker.TickChain` | gas-tracker/src/components/GasTracker.js:56-78 | one chain's tick appends its reading to its window and sets its prices to the reading's; other chains, key order and the other state are unchanged, and the state stays well formed |
| `GasTracker.TickReadings` | gas-tracker/src/components/GasTracker.js:53-57 | one reading per tracked chain, in order, all at the same timestamp |
| `GasTracker.ChainsOf` | gas-tracker/src/components/GasTracker.js:54-56 | the chains a list of readings is for, position by position |
| `GasTracker.ChainsOfTick` | gas-tracker/src/components/GasTracker.js:54-57 | a tick's readings are for ethereum, polygon and arbitrum, which are distinct |
| `GasTracker.TickAll` | gas-tracker/src/components/GasTracker.js:56-78 | applying the per-chain updates in order keeps the state well formed and the key order, and leaves chains without a reading untouched |
| `GasTracker.TickAllTicksEach` | gas-tracker/src/components/GasTracker.js:56-78 | for readings of distinct chains, each chain's window takes in its own reading and its prices become that reading's |
| `GasTracker.Tick` | gas-tracker/src/components/GasTracker.js:52-82 | the interval callback keeps the state well formed and the key order of both objects, leaves untracked chains alone, replaces the exchange rate, and leaves mode, value and results as they were |
| `GasTracker.TickUpdatesTracked` | gas-tracker/src/components/GasTracker.js:56-78 | in a tick, each tracked chain takes in the reading generated for it at the tick's timestamp |
| `GasTracker.SeedSeries` | gas-tracker/src/components/GasTracker.js:89-100 | 20 points, the last at `now`, 6000 ms apart and strictly ascending, each the reading generated for its own timestamp |
| `GasTracker.SeedIsHistorical` | gas-tracker/src/components/GasTracker.js:89-100 | the component's own seeding loop builds exactly the points `generateHistoricalGasData(chain, 20, 6000)` builds from the same clock reading and draws, less their block numbers |
| `GasTracker.LoadChain` | gas-tracker/src/components/GasTracker.js:102-112 | one chain's series becomes the seeded one and its prices those of the last point; other chains and other fields unchanged, the key order of both objects kept when the chain is already a key, well-formedness kept |
| `GasTracker.LatestPrices` | gas-tracker/src/components/GasTracker.js:104-111 | the prices `initialLoad` copies from the last point are the prices of the reading that point was made from: `price` goes back to `totalFee` |
| `GasTracker.LoadTracked` | gas-tracker/src/components/GasTracker.js:88-112 | loading ethereum, polygon and arbitrum in turn seeds each with its own series, keeps both key orders, leaves every other chain and every other field alone, and keeps the state well formed |
| `GasTracker.InitialLoad` | gas-tracker/src/components/GasTracker.js:85-116 | each of the three chains holds its seeded series and its latest prices; both objects keep their key order, every other chain and every other field (rate, mode, value, results) is unchanged, and the state stays well formed |
| `GasTracker.SeedThroughWindow` | gas-tracker/src/components/GasTracker.js:89-102 | feeding a seeded series point by point through the window from empty rebuilds it unchanged |
| `GasTracker.TickKeepsInStep` | gas-tracker/src/components/GasTracker.js:56-78 | after a tick, every chain's last point agrees with its current prices |
| `GasTracker.InitialLoadInStep` | gas-tracker/src/components/GasTracker.js:102-112 | after the initial load, every tracked chain's last point agrees with its current prices |
| `GasTracker.SimulationCost` | gas-tracker/src/components/GasTracker.js:128-140 | gas in ETH is fee times 21000 over 1e9, gas USD is that times the rate, and total is value USD plus gas USD |
| `GasTracker.RunSimulation` | gas-tracker/src/components/GasTracker.js:121-144 | a NaN or non-positive value leaves the results alone; otherwise every chain in `currentPrices` gets its own cost, in key order |
| `GasTracker.SimulationAt` | gas-tracker/src/components/GasTracker.js:128-140 | the simulated cost stored under a chain is the one computed from that chain's prices |
| `GasTracker.SimulationAgreesWithService` | gas-tracker/src/components/GasTracker.js:125-139 | on every configured chain the simulation's total equals `calculateTransactionCosts`'s total |
| `GasTracker.AfterRender` | gas-tracker/src/components/GasTracker.js:146-151 | the effect only touches the results; it simulates exactly in live mode when the mode or the simulation's inputs changed |
| `CostComparison.Insert` | gas-tracker/src/components/CostComparison.js:14 | one step of the stable sort adds exactly one entry (its order, contents and stability are stated by the `Insert…` lemmas below) |
| `CostComparison.SortByCost` | gas-tracker/src/components/CostComparison.js:14 | the ranking has as many entries as the results (its contents, order and stability are stated by `SortPermutes`, `SortSorted` and `SortStable`) |
| `CostComparison.InsertPermutes` | gas-tracker/src/components/CostComparison.js:13-14 | inserting adds exactly the inserted entry |
| `CostComparison.InsertSorted` | gas-tracker/src/components/CostComparison.js:14 | inserting into a cost-sorted list keeps it sorted |
| `CostComparison.InsertStable` | gas-tracker/src/components/CostComparison.js:14 | the inserted entry goes ahead of every equal-cost entry already placed |
| `CostComparison.InsertKeys` | gas-tracker/src/components/CostComparison.js:13-15 | inserting adds exactly one occurrence of the entry's chain |
| `CostComparison.SortPermutes` | gas-tracker/src/components/CostComparison.js:13-15 | the ranking is a permutation of the result entries |
| `CostComparison.SortSorted` | gas-tracker/src/components/CostComparison.js:14 | the ranking is in non-decreasing order of total cost |
| `CostComparison.SortStable` | gas-tracker/src/components/CostComparison.js:14 | entries of equal total cost keep their original relative order |
| `CostComparison.SortKeys` | gas-tracker/src/components/CostComparison.js:13-15 | the ranking lists every chain exactly as often as the results do |
| `CostComparison.Render` | gas-tracker/src/components/CostComparison.js:11-57 | null results give only the placeholder; otherwise there is one card per entry, in ranked order, as a permutation with equal-cost order kept, and only the first card is flagged |
| `CostComparison.RankingSorted` | gas-tracker/src/components/CostComparison.js:13-15 | the cards appear in non-decreasing total cost |
| `CostComparison.CheapestIsMinimal` | gas-tracker/src/components/CostComparison.js:17-31 | the flagged card costs no more than any entry of the results |
| `CostComparison.EachChainOnce` | gas-tracker/src/components/CostComparison.js:13-17 | every chain of the results heads exactly one card |
| `GasPriceChart.EnabledChains` | gas-tracker/src/components/GasPriceChart.js:11 | every enabled chain is a key of `gasData` |
| `GasPriceChart.EnabledIffNonEmpty` | gas-tracker/src/components/GasPriceChart.js:11 | a chain is enabled exactly when it is a key with a non-empty series |
| `GasPriceChart.EnabledInKeyOrder` | gas-tracker/src/components/GasPriceChart.js:11 | the enabled chains come in key order: they are a subsequence of the keys |
| `GasPriceChart.EnabledDistinct` | gas-tracker/src/components/GasPriceChart.js:11 | no chain is enabled twice |
| `GasPriceChart.ColumnsAt` | gas-tracker/src/components/GasPriceChart.js:21-27 | a row holds a chain's fields exactly when the chain is among those visited and has an item at that index; the fields are copied unchanged, with no chain twice |
| `GasPriceChart.CombineData` | gas-tracker/src/components/GasPriceChart.js:14-31 | no enabled chain gives no rows; otherwise there is one row per item of the first enabled chain's series, timed by that item |
| `GasPriceChart.RowColumns` | gas-tracker/src/components/GasPriceChart.js:17-27 | row i holds a chain's fields exactly when that chain's series is non-empty and has an item at i, and then they are that item's fields |
| `GasPriceChart.EmptyIffNothingEnabled` | gas-tracker/src/components/GasPriceChart.js:15-18 | the chart is empty exactly when every series is empty |
| `GasPriceChart.Latest` | gas-tracker/src/components/GasPriceChart.js:138-150 | one figure per enabled chain, in order; it is that chain's last point, skipped only when the series is empty |
| `GasPriceChart.LatestNeverSkipped` | gas-tracker/src/components/GasPriceChart.js:140-142 | no enabled chain's figure is skipped |
| `GasPriceChart.LatestIsCurrentPrice` | gas-tracker/src/components/GasPriceChart.js:140-150 | on a state whose points and prices are in step, the figure under the chart is the current total fee |

## Left out

- Rendering, styling, icons, the tooltip and the React component tree. Only the data each
  component derives is modelled.
- `toLocaleTimeString` labels are represented by their timestamps.
- `toFixed` renderings in the cost and status objects are represented by the numbers they
  render. Rounding to cents is modelled only where the number is parsed back with
  `parseFloat` (the generated fees).
- IEEE-754 double arithmetic: every number is an exact real.
- `getMockEthUsdPrice` is left out, because it uses `Math.sin` of the clock. The tick takes
  the new rate as an argument.
- `generateHistoricalGasData`'s default arguments: the caller passes `points` and
  `intervalMs` explicitly.
- `GasTracker.RunSimulation`: `parseFloat` of the input box is an input `Option<real>`.
  The strings that parse to `Infinity` are not modelled.
- Keys that are array indices (`"0"`, `"1"`, …), which `Object.keys` lists first in
  ascending order whatever their insertion order, are not modelled: the dictionary is
  insertion-ordered throughout. Every key the dashboard uses is a chain name.
- Lookups of keys inherited from `Object.prototype` (`NETWORK_CONFIG["toString"]` and the
  like) are treated as missing keys.
- `MockWebSocketProvider.Broadcast`: every delivery of one broadcast carries the same clock
  reading, while the source reads `Date.now()` once per listener
  (`MockWebSocketProvider.js` lines 26, 46 and 59), so later listeners may see a later
  timestamp. Listeners are assumed not to throw. In the source a throwing listener ends the
  `forEach` early. In `simulateDisconnection` that happens after `connected` has dropped, so
  the attempt counter is not incremented and no reconnect is scheduled.
- `GasTracker.AfterRender`: the effect's dependencies are compared by value, React compares
  them with `Object.is`. Every tick builds a new `currentPrices` object and a re-typed value
  string (`"0.5"` to `"0.50"`) is a new string, so React reruns the simulation in cases the
  model does not. The rerun recomputes the same results from the same inputs, so the
  rendered results agree.
- `MockWebSocketProvider.Fire`: any pending timer may fire next, a superset of the orders
  real deadlines allow. Listeners that call back into the provider while it delivers an
  event are not modelled.
- The component's imports are default imports of names the service modules only export by
  name, so the page as written does not wire these modules together. The model composes
  the functions as the code evidently intends.
- The provider effect in `GasTracker.js` (three providers connected at mount, disconnected
  at unmount), and the `isConnected` flag it sets, are not modelled beyond the provider
  itself.
- `CurrentGasPrices.js`, `WalletSimulation.js`, `StatusFooter.js`, the API route and the
  page are not part of this model.
- React's batching and scheduling of state updates: each updater is applied in call order
  to the state the previous one produced.

=== FILE: cost_comparison.dfy ===
/** The cost comparison panel (`src/components/CostComparison.js`): the entries of the
    simulation results ranked by ascending total cost, the first one flagged CHEAPEST, or a
    placeholder when there are no results.

    `Array.prototype.sort` is stable, so the ranking is modelled as a stable insertion sort
    on the entries in `Object.entries` order. */
module CostComparison {
  import opened Wrappers
  import opened Dict
  import opened GasTracker

  type Entry = (Key, SimulationResult)

  /** One rendered card: the chain, its results, and whether it carries the CHEAPEST badge
      (and the highlighted border that goes with it). */
  datatype Row = Row(chain: Key, result: SimulationResult, cheapest: bool)

  datatype View = Placeholder | Ranking(rows: seq<Row>)

  /** The sort key: `parseFloat(totalCost)`, and `totalCost` is already a number. */
  function Cost(e: Entry): real {
    e.1.totalCost
  }

  predicate SortedByCost(s: seq<Entry>) {
    forall i, j :: 0 <= i < j < |s| ==> Cost(s[i]) <= Cost(s[j])
  }

  /** The entries of `s` whose cost is `c`, in their order in `s`. A sort is stable exactly
      when it leaves each of these subsequences as it was. */
  function WithCost(s: seq<Entry>, c: real): seq<Entry> {
    if s == [] then []
    else (if Cost(s[0]) == c then [s[0]] else []) + WithCost(s[1..], c)
  }

  lemma WithCostCons(e: Entry, s: seq<Entry>, c: real)
    ensures WithCost([e] + s, c) == (if Cost(e) == c then [e] else []) + WithCost(s, c)
  {
    assert ([e] + s)[1..] == s;
  }

  /** Places `e` in front of the first entry that costs at least as much, so that `e` stays
      ahead of every equal-cost entry that came after it in the input. */
  function Insert(e: Entry, s: seq<Entry>): (r: seq<Entry>)
    ensures |r| == |s| + 1
  {
    if s == [] || Cost(e) <= Cost(s[0]) then [e] + s
    else [s[0]] + Insert(e, s[1..])
  }

  /** The ranking: `Object.entries(results).sort((a, b) => a.totalCost - b.totalCost)`. */
  function SortByCost(s: seq<Entry>): (r: seq<Entry>)
    ensures |r| == |s|
  {
    if s == [] then [] else Insert(s[0], SortByCost(s[1..]))
  }

  lemma {:induction false} InsertPermutes(e: Entry, s: seq<Entry>)
    ensures multiset(Insert(e, s)) == multiset(s) + multiset{e}
  {
    if s != [] && Cost(e) > Cost(s[0]) {
      InsertPermutes(e, s[1..]);
      assert s == [s[0]] + s[1..];
    }
  }

  lemma {:induction false} InsertSorted(e: Entry, s: seq<Entry>)
    requires SortedByCost(s)
    ensures SortedByCost(Insert(e, s))
  {
    if s != [] && Cost(e) > Cost(s[0]) {
      var t := Insert(e, s[1..]);
      InsertSorted(e, s[1..]);
      InsertPermutes(e, s[1..]);
      forall x | x in t ensures Cost(s[0]) <= Cost(x) {
        assert x in multiset(t);
        if x != e {
          assert x in multiset(s[1..]);
        }
      }
    }
  }

  lemma {:induction false} InsertStable(e: Entry, s: seq<Entry>, c: real)
    ensures WithCost(Insert(e, s), c) == (if Cost(e) == c then [e] else []) + WithCost(s, c)
  {
    if s == [] || Cost(e) <= Cost(s[0]) {
      WithCostCons(e, s, c);
    } else {
      var t := Insert(e, s[1..]);
      assert Insert(e, s) == [s[0]] + t;
      assert s == [s[0]] + s[1..];
      InsertStable(e, s[1..], c);
      WithCostCons(s[0], t, c);
      WithCostCons(s[0], s[1..], c);
      if Cost(e) == c {
        assert Cost(s[0]) != c;
      }
    }
  }

  lemma {:induction false} InsertKeys(e: Entry, s: seq<Entry>)
    ensures multiset(Keys(Insert(e, s))) == multiset(Keys(s)) + multiset{e.0}
  {
    if s == [] || Cost(e) <= Cost(s[0]) {
      ConsFacts(e, s);
    } else {
      assert s == [s[0]] + s[1..];
      InsertKeys(e, s[1..]);
      ConsFacts(s[0], Insert(e, s[1..]));
      ConsFacts(s[0], s[1..]);
    }
  }

  /** The ranking shows every entry exactly as often as the results hold it. */
  lemma {:induction false} SortPermutes(s: seq<Entry>)
    ensures multiset(SortByCost(s)) == multiset(s)
  {
    if s != [] {
      SortPermutes(s[1..]);
      InsertPermutes(s[0], SortByCost(s[1..]));
      assert s == [s[0]] + s[1..];
    }
  }

  /** The ranking is in non-decreasing order of total cost. */
  lemma {:induction false} SortSorted(s: seq<Entry>)
    ensures SortedByCost(SortByCost(s))
  {
    if s != [] {
      SortSorted(s[1..]);
      InsertSorted(s[0], SortByCost(s[1..]));
    }
  }

  /** Entries of equal total cost keep their relative order. */
  lemma {:induction false} SortStable(s: seq<Entry>, c: real)
    ensures WithCost(SortByCost(s), c) == WithCost(s, c)
  {
    if s != [] {
      SortStable(s[1..], c);
      InsertStable(s[0], SortByCost(s[1..]), c);
      assert s == [s[0]] + s[1..];
      WithCostCons(s[0], s[1..], c);
    }
  }

  /** The ranking lists the same chains, each as often as the results do. */
  lemma {:induction false} SortKeys(s: seq<Entry>)
    ensures multiset(Keys(SortByCost(s))) == multiset(Keys(s))
  {
    if s != [] {
      SortKeys(s[1..]);
      InsertKeys(s[0], SortByCost(s[1..]));
      assert s == [s[0]] + s[1..];
      ConsFacts(s[0], s[1..]);
    }
  }

  /** The panel for `simulationResults`: the placeholder when there are none, otherwise one
      card per entry in ranked order, the first one flagged. */
  function Render(results: Option<Dict<SimulationResult>>): (v: View)
    ensures results.None? <==> v.Placeholder?
    ensures v.Ranking? ==> |v.rows| == |results.value|
    ensures v.Ranking? ==> multiset(Entries(v.rows)) == multiset(results.value)
    ensures v.Ranking? ==> forall c :: WithCost(Entries(v.rows), c) == WithCost(results.value, c)
    ensures v.Ranking? ==> forall i :: 0 <= i < |v.rows| ==> (v.rows[i].cheapest <==> i == 0)
    ensures v.Ranking? ==> Entries(v.rows) == SortByCost(results.value)
  {
    match results
    case None => Placeholder
    case Some(d) =>
      var sorted := SortByCost(d);
      SortPermutes(d);
      assert |sorted| == |multiset(sorted)| == |d|;
      assert forall c :: WithCost(sorted, c) == WithCost(d, c) by {
        forall c ensures WithCost(sorted, c) == WithCost(d, c) { SortStable(d, c); }
      }
      var rows := seq(|sorted|, i requires 0 <= i < |sorted| => Row(sorted[i].0, sorted[i].1, i == 0));
      assert Entries(rows) == sorted;
      Ranking(rows)
  }

  /** The (chain, results) pairs the cards show, in order. */
  function Entries(rows: seq<Row>): (es: seq<Entry>)
    ensures |es| == |rows|
    ensures forall i :: 0 <= i < |rows| ==> es[i] == (rows[i].chain, rows[i].result)
  {
    seq(|rows|, i requires 0 <= i < |rows| => (rows[i].chain, rows[i].result))
  }

  /** Cards appear in non-decreasing order of total cost. */
  lemma RankingSorted(d: Dict<SimulationResult>)
    ensures forall i, j :: 0 <= i < j < |Render(Some(d)).rows| ==>
      Render(Some(d)).rows[i].result.totalCost <= Render(Some(d)).rows[j].result.totalCost
  {
    SortSorted(d);
  }

  /** The flagged card is a cheapest one: no entry of the results costs less. */
  lemma CheapestIsMinimal(d: Dict<SimulationResult>)
    requires |d| > 0
    ensures Render(Some(d)).rows[0].cheapest
    ensures forall e :: e in d ==> Render(Some(d)).rows[0].result.totalCost <= Cost(e)
  {
    var sorted := SortByCost(d);
    SortPermutes(d);
    SortSorted(d);
    forall e | e in d
      ensures sorted[0].1.totalCost <= Cost(e)
    {
      assert e in multiset(sorted);
      var j :| 0 <= j < |sorted| && sorted[j] == e;
    }
  }

  /** In a distinct-key dictionary each chain heads exactly one card. */
  lemma EachChainOnce(d: Dict<SimulationResult>, k: Key)
    requires DistinctKeys(d) && k in Keys(d)
    ensures multiset(Keys(SortByCost(d)))[k] == 1
  {
    SortKeys(d);
    DistinctOccursOnce(Keys(d), k);
  }

  lemma {:induction false} DistinctOccursOnce(s: seq<Key>, k: Key)
    requires Distinct(s) && k in s
    ensures multiset(s)[k] == 1
  {
    assert s == [s[0]] + s[1..];
    DistinctTail(s);
    if s[0] != k {
      DistinctOccursOnce(s[1..], k);
    }
  }
}

=== FILE: dict.dfy ===
/** A plain JavaScript object used as a dictionary (`{ethereum: …, polygon: …}`): string keys
    kept in insertion order, each key at most once. For keys that are not array indices (the
    chain names are not) `Object.keys` and `Object.entries` walk it in that order, which
    decides the order of everything the dashboard derives from it. */
module Dict {
  import opened Wrappers

  type Key = string
  type Dict<V> = seq<(Key, V)>

  /** `Object.keys(d)`. */
  function Keys<V>(d: Dict<V>): (ks: seq<Key>)
    ensures |ks| == |d|
    ensures forall i :: 0 <= i < |d| ==> ks[i] == d[i].0
  {
    if d == [] then [] else [d[0].0] + Keys(d[1..])
  }

  predicate Distinct<T(==)>(s: seq<T>) {
    forall i, j :: 0 <= i < j < |s| ==> s[i] != s[j]
  }

  /** Dropping the head of a repetition-free sequence keeps it so, and the head is not
      repeated in the tail. */
  lemma DistinctTail<T>(s: seq<T>)
    requires Distinct(s) && s != []
    ensures Distinct(s[1..]) && s[0] !in s[1..]
  {
    forall i, j | 0 <= i < j < |s[1..]| ensures s[1..][i] != s[1..][j] {
      assert s[1..][i] == s[i + 1] && s[1..][j] == s[j + 1];
    }
    forall i | 0 <= i < |s[1..]| ensures s[1..][i] != s[0] {
      assert s[1..][i] == s[i + 1];
    }
  }

  /** What every JavaScript object guarantees: no key twice. */
  predicate DistinctKeys<V>(d: Dict<V>) {
    Distinct(Keys(d))
  }

  /** `d[k]`, `None` standing for `undefined`. */
  function Get<V>(d: Dict<V>, k: Key): (r: Option<V>)
    ensures r.Some? <==> k in Keys(d)
    ensures r.Some? ==> (k, r.value) in d
  {
    if d == [] then None
    else if d[0].0 == k then Some(d[0].1)
    else Get(d[1..], k)
  }

  /** With distinct keys, reading the key of any entry yields that entry's value. */
  lemma {:induction false} GetEntry<V>(d: Dict<V>, i: int)
    requires DistinctKeys(d) && 0 <= i < |d|
    ensures Get(d, d[i].0) == Some(d[i].1)
  {
    if i > 0 {
      assert Keys(d)[0] != Keys(d)[i];
      assert Keys(d[1..]) == Keys(d)[1..];
      GetEntry(d[1..], i - 1);
    }
  }

  /** `{...d, [k]: v}`: an existing key keeps its position, a new one goes last. */
  function Put<V>(d: Dict<V>, k: Key, v: V): (r: Dict<V>)
    ensures (k, v) in r
    ensures |r| == if k in Keys(d) then |d| else |d| + 1
  {
    if d == [] then [(k, v)]
    else
      ConsFacts(d[0], d[1..]);
      assert d == [d[0]] + d[1..];
      if d[0].0 == k then [(k, v)] + d[1..]
      else [d[0]] + Put(d[1..], k, v)
  }

  /** How `Keys` and `Get` see an entry placed in front of a dictionary. */
  lemma ConsFacts<V>(e: (Key, V), t: Dict<V>)
    ensures Keys([e] + t) == [e.0] + Keys(t)
    ensures Get([e] + t, e.0) == Some(e.1)
    ensures forall k :: k != e.0 ==> Get([e] + t, k) == Get(t, k)
  {
    assert ([e] + t)[1..] == t;
  }

  /** After `Put`, the key reads back the new value and every other key reads as before. */
  lemma {:induction false} PutGet<V>(d: Dict<V>, k: Key, v: V)
    ensures Get(Put(d, k, v), k) == Some(v)
    ensures forall k' :: k' != k ==> Get(Put(d, k, v), k') == Get(d, k')
  {
    if d != [] {
      assert d == [d[0]] + d[1..];
      ConsFacts(d[0], d[1..]);
      if d[0].0 == k {
        ConsFacts((k, v), d[1..]);
      } else {
        PutGet(d[1..], k, v);
        ConsFacts(d[0], Put(d[1..], k, v));
      }
    }
  }

  /** `Put` keeps the key order: an existing key stays in place, a new key is appended (as
      `{...d, [k]: v}` does for a key that is not an array index). */
  lemma {:induction false} PutKeys<V>(d: Dict<V>, k: Key, v: V)
    ensures Keys(Put(d, k, v)) == if k in Keys(d) then Keys(d) else Keys(d) + [k]
  {
    if d != [] {
      assert d == [d[0]] + d[1..];
      ConsFacts(d[0], d[1..]);
      if d[0].0 == k {
        ConsFacts((k, v), d[1..]);
      } else {
        PutKeys(d[1..], k, v);
        ConsFacts(d[0], Put(d[1..], k, v));
      }
    }
  }

  /** Every entry of `Put(d, k, v)` is the new one or an entry of `d`. */
  lemma {:induction false} PutEntries<V>(d: Dict<V>, k: Key, v: V)
    ensures forall e :: e in Put(d, k, v) ==> e == (k, v) || e in d
  {
    if d != [] && d[0].0 != k {
      PutEntries(d[1..], k, v);
      assert d == [d[0]] + d[1..];
    }
  }

  /** `a` is `b` with some elements left out, the rest in their order. */
  predicate Subsequence(a: seq<Key>, b: seq<Key>)
    decreases |b|
  {
    a == [] || (b != [] && ((a[0] == b[0] && Subsequence(a[1..], b[1..])) || Subsequence(a, b[1..])))
  }

  /** The entries whose key passes `keep`, each value replaced by `f` of its key and value,
      in their order. */
  function FilterMap<V, W>(d: Dict<V>, keep: Key -> bool, f: (Key, V) --> W): (r: Dict<W>)
    requires forall e :: e in d && keep(e.0) ==> f.requires(e.0, e.1)
    ensures forall k :: k in Keys(r) <==> k in Keys(d) && keep(k)
    ensures forall k :: k in Keys(r) ==> Get(r, k) == Some(f(k, Get(d, k).value))
    ensures DistinctKeys(d) ==> DistinctKeys(r)
  {
    if d == [] then []
    else
      var e := d[0];
      var t := d[1..];
      assert d == [e] + t;
      ConsFacts(e, t);
      var rest := FilterMap(t, keep, f);
      if keep(e.0) then
        var e' := (e.0, f(e.0, e.1));
        ConsFacts(e', rest);
        assert DistinctKeys(d) ==> DistinctKeys([e'] + rest) by {
          if DistinctKeys(d) {
            DistinctTail(Keys(d));
            ConsDistinct(e', rest);
          }
        }
        [e'] + rest
      else
        assert DistinctKeys(d) ==> DistinctKeys(t) by {
          if DistinctKeys(d) {
            DistinctTail(Keys(d));
          }
        }
        rest
  }

  /** Filtering keeps the surviving keys in their order. */
  lemma {:induction false} FilterMapInOrder<V, W>(d: Dict<V>, keep: Key -> bool, f: (Key, V) --> W)
    requires forall e :: e in d && keep(e.0) ==> f.requires(e.0, e.1)
    ensures Subsequence(Keys(FilterMap(d, keep, f)), Keys(d))
  {
    if d != [] {
      var t := d[1..];
      assert d == [d[0]] + t;
      ConsFacts(d[0], t);
      FilterMapInOrder(t, keep, f);
      var rest := FilterMap(t, keep, f);
      if keep(d[0].0) {
        var e' := (d[0].0, f(d[0].0, d[0].1));
        assert FilterMap(d, keep, f) == [e'] + rest;
        ConsFacts(e', rest);
      } else {
        assert FilterMap(d, keep, f) == rest;
      }
    }
  }

  /** A fresh key in front of a distinct-key dictionary keeps the keys distinct. */
  lemma ConsDistinct<V>(e: (Key, V), t: Dict<V>)
    requires DistinctKeys(t) && e.0 !in Keys(t)
    ensures DistinctKeys([e] + t)
  {
    ConsFacts(e, t);
    var ks := Keys([e] + t);
    forall i, j | 0 <= i < j < |ks| ensures ks[i] != ks[j] {
      assert ks[j] == Keys(t)[j - 1];
      if i > 0 {
        assert ks[i] == Keys(t)[i - 1];
      }
    }
  }

  lemma PutKeepsDistinct<V>(d: Dict<V>, k: Key, v: V)
    ensures DistinctKeys(d) ==> DistinctKeys(Put(d, k, v))
  {
    PutKeys(d, k, v);
  }
}

=== FILE: gas_data_service.dfy ===
/** The fee generator and the metrics derived from fee readings
    (`src/services/GasDataService.js`).

    `Math.random()`, the local hour of `new Date(timestamp)` and `Date.now()` are inputs here:
    a reading takes the hour and its three random draws as arguments, and a series takes the
    clock reading `now`, an hour-of-day function and one triple of draws per point. */
module GasDataService {
  import opened Wrappers
  import opened Numbers
  import opened Dict

  type Chain = string

  const Ethereum: Chain := "ethereum"
  const Polygon: Chain := "polygon"
  const Arbitrum: Chain := "arbitrum"
  const Optimism: Chain := "optimism"
  const Bsc: Chain := "bsc"

  lemma TrackedChainsDistinct()
    ensures Ethereum != Polygon && Ethereum != Arbitrum && Polygon != Arbitrum
  {
    assert Ethereum[0] != Polygon[0] && Ethereum[0] != Arbitrum[0] && Polygon[0] != Arbitrum[0];
  }

  /** `BASE_GAS_PRICES[chain]`, in gwei; `None` for a chain the table does not list. */
  function BaseGasPrice(chain: Chain): (r: Option<real>)
    ensures r.Some? <==> chain in {Ethereum, Polygon, Arbitrum, Optimism, Bsc}
    ensures r.Some? ==> r.value > 0.0
  {
    if chain == Ethereum then Some(25.0)
    else if chain == Polygon then Some(35.0)
    else if chain == Arbitrum then Some(0.8)
    else if chain == Optimism then Some(0.5)
    else if chain == Bsc then Some(5.0)
    else None
  }

  datatype NetworkConfig = NetworkConfig(name: string, color: string, gasLimit: int, currency: string)

  /** `NETWORK_CONFIG[chain]`: only three of the five priced chains are configured. */
  function NetworkConfigOf(chain: Chain): (r: Option<NetworkConfig>)
    ensures r.Some? <==> chain in {Ethereum, Polygon, Arbitrum}
    ensures r.Some? ==> r.value.gasLimit == 21000 && BaseGasPrice(chain).Some?
  {
    if chain == Ethereum then Some(NetworkConfig("Ethereum", "#627eea", 21000, "ETH"))
    else if chain == Polygon then Some(NetworkConfig("Polygon", "#8247e5", 21000, "MATIC"))
    else if chain == Arbitrum then Some(NetworkConfig("Arbitrum", "#28a0f0", 21000, "ETH"))
    else None
  }

  /** Gwei per ETH, the divisor of the gwei-to-ETH conversion. */
  const GweiPerEth: real := 1000000000.0

  // ---------------------------------------------------------------------------
  // One synthetic reading: generateMockGasData
  // ---------------------------------------------------------------------------

  /** The three `Math.random()` values one reading consumes, in call order: the fee
      variation, the priority tip and the block-number offset. */
  datatype Draws = Draws(variation: real, priority: real, block: real)

  predicate ValidDraws(d: Draws) {
    && 0.0 <= d.variation < 1.0
    && 0.0 <= d.priority < 1.0
    && 0.0 <= d.block < 1.0
  }

  datatype GasReading = GasReading(
    chain: Chain,
    baseFee: real,
    priorityFee: real,
    timestamp: int,
    totalFee: real,
    blockNumber: int)

  /** `BASE_GAS_PRICES[chain] || 10`: every chain gets a positive baseline. */
  function Baseline(chain: Chain): (b: real)
    ensures b > 0.0
    ensures BaseGasPrice(chain).None? ==> b == 10.0
    ensures BaseGasPrice(chain).Some? ==> b == BaseGasPrice(chain).value
  {
    BaseGasPrice(chain).GetOr(10.0)
  }

  /** Peak hours run at one and a half times the baseline. */
  function TrafficMultiplier(hour: int): (m: real)
    ensures m == 1.5 <==> 8 <= hour <= 22
    ensures m == 1.0 <==> !(8 <= hour <= 22)
  {
    if hour >= 8 && hour <= 22 then 1.5 else 1.0
  }

  /** Half-width of the variation interval: ethereum's variation is doubled. */
  function Spread(chain: Chain): real {
    if chain == Ethereum then 10.0 else 5.0
  }

  /** `Math.random() * 10 - 5`, doubled for ethereum. */
  function Variation(chain: Chain, draw: real): (v: real)
    requires 0.0 <= draw < 1.0
    ensures -Spread(chain) <= v < Spread(chain)
    ensures chain == Ethereum ==> -10.0 <= v < 10.0
    ensures chain != Ethereum ==> -5.0 <= v < 5.0
  {
    var v := draw * 10.0 - 5.0;
    if chain == Ethereum then v * 2.0 else v
  }

  /** The unrounded base fee, floored at 1 gwei. */
  function RawBaseFee(chain: Chain, hour: int, draw: real): (b: real)
    requires 0.0 <= draw < 1.0
    ensures b >= 1.0
    ensures Max(1.0, Baseline(chain) * TrafficMultiplier(hour) - Spread(chain)) <= b
    ensures b < Max(1.0, Baseline(chain) * TrafficMultiplier(hour) + Spread(chain)) || b == 1.0
  {
    Max(1.0, Baseline(chain) * TrafficMultiplier(hour) + Variation(chain, draw))
  }

  /** The unrounded priority fee. Its 0.1 floor never binds: a tenth of a base fee of at
      least 1 is already at least 0.1. */
  function RawPriorityFee(rawBase: real, draw: real): (p: real)
    requires rawBase >= 1.0 && 0.0 <= draw < 1.0
    ensures p == rawBase * 0.1 + draw * 2.0
    ensures 0.1 * rawBase <= p < 0.1 * rawBase + 2.0
  {
    Max(0.1, rawBase * 0.1 + draw * 2.0)
  }

  /** `generateMockGasData(chain, timestamp)`, with the local hour of `timestamp` and the
      random draws passed in. */
  function GenerateMockGasData(chain: Chain, hour: int, timestamp: int, draws: Draws): (r: GasReading)
    requires ValidDraws(draws)
    ensures r.chain == chain && r.timestamp == timestamp
    ensures r.baseFee >= 1.0 && r.priorityFee >= 0.1
    ensures IsCents(r.baseFee) && IsCents(r.priorityFee) && IsCents(r.totalFee)
    ensures Max(1.0, Baseline(chain) * TrafficMultiplier(hour) - Spread(chain)) - 0.005 <= r.baseFee
    ensures r.baseFee <= Max(1.0, Baseline(chain) * TrafficMultiplier(hour) + Spread(chain)) + 0.005
    ensures -0.01 <= r.totalFee - (r.baseFee + r.priorityFee) <= 0.01
    ensures timestamp / 1000 <= r.blockNumber <= timestamp / 1000 + 999
  {
    var baseFee := RawBaseFee(chain, hour, draws.variation);
    var priorityFee := RawPriorityFee(baseFee, draws.priority);
    Round2AtLeast(baseFee, 1.0);
    Round2AtLeast(priorityFee, 0.1);
    Round2OfSum(baseFee, priorityFee);
    GasReading(
      chain,
      Round2(baseFee),
      Round2(priorityFee),
      timestamp,
      Round2(baseFee + priorityFee),
      timestamp / 1000 + (draws.block * 1000.0).Floor)
  }

  /** The total is rounded from the unrounded components, so it need not equal the sum of
      the rounded ones: here 1.005 and 0.105 round to 1.01 and 0.11, but their sum 1.11
      is already whole cents. */
  lemma TotalFeeMayDifferFromSumOfFields()
    ensures var r := GenerateMockGasData(Arbitrum, 0, 0, Draws(0.5205, 0.00225, 0.0));
            r.baseFee == 1.01 && r.priorityFee == 0.11 && r.totalFee == 1.11
            && r.totalFee != r.baseFee + r.priorityFee
  {
    var b := RawBaseFee(Arbitrum, 0, 0.5205);
    assert b == 1.005;
    var p := RawPriorityFee(b, 0.00225);
    assert p == 0.105;
    assert (b * 100.0 + 0.5).Floor == 101;
    assert (p * 100.0 + 0.5).Floor == 11;
    assert ((b + p) * 100.0 + 0.5).Floor == 111;
  }

  // ---------------------------------------------------------------------------
  // A seeded series: generateHistoricalGasData
  // ---------------------------------------------------------------------------

  datatype HistoricalPoint = HistoricalPoint(
    price: real,
    baseFee: real,
    priorityFee: real,
    timestamp: int,
    blockNumber: int)

  /** The series point built from a reading; its price is the reading's total fee. */
  function PointOf(r: GasReading): HistoricalPoint {
    HistoricalPoint(r.totalFee, r.baseFee, r.priorityFee, r.timestamp, r.blockNumber)
  }

  /** `generateHistoricalGasData(chain, points, intervalMs)` at clock reading `now`;
      `draws[k]` feeds the k-th point generated and `hourOf` is the local hour of a timestamp. */
  method GenerateHistoricalGasData(
    chain: Chain, points: int, intervalMs: int, now: int, hourOf: int -> int, draws: seq<Draws>)
    returns (data: seq<HistoricalPoint>)
    requires points <= |draws|
    requires forall k :: 0 <= k < |draws| ==> ValidDraws(draws[k])
    ensures |data| == if points > 0 then points else 0
    ensures forall k :: 0 <= k < |data| ==> data[k].timestamp == now - (|data| - 1 - k) * intervalMs
    ensures forall k :: 0 <= k < |data| ==>
      data[k] == PointOf(GenerateMockGasData(chain, hourOf(data[k].timestamp), data[k].timestamp, draws[k]))
    ensures intervalMs > 0 ==> forall j, k :: 0 <= j < k < |data| ==> data[j].timestamp < data[k].timestamp
    ensures |data| > 0 ==> data[|data| - 1].timestamp == now
  {
    data := [];
    var i := points - 1;
    while i >= 0
      invariant i < points
      invariant points > 0 ==> i >= -1
      invariant points <= 0 ==> i == points - 1
      invariant |data| == points - 1 - i
      invariant |data| <= |draws|
      invariant forall k :: 0 <= k < |data| ==> data[k].timestamp == now - (points - 1 - k) * intervalMs
      invariant forall k :: 0 <= k < |data| ==>
        data[k] == PointOf(GenerateMockGasData(chain, hourOf(data[k].timestamp), data[k].timestamp, draws[k]))
    {
      var timestamp := now - i * intervalMs;
      var gasData := GenerateMockGasData(chain, hourOf(timestamp), timestamp, draws[|data|]);
      ghost var prev := data;
      data := data + [PointOf(gasData)];
      assert data[|prev|].timestamp == timestamp;
      assert forall k :: 0 <= k < |prev| ==> data[k] == prev[k];
      i := i - 1;
    }
    if intervalMs > 0 {
      SpacedIsAscending(data, now, intervalMs);
    }
  }

  /** Points spaced a positive interval apart, ending at `now`, have ascending timestamps. */
  lemma SpacedIsAscending(data: seq<HistoricalPoint>, now: int, intervalMs: int)
    requires intervalMs > 0
    requires forall k :: 0 <= k < |data| ==> data[k].timestamp == now - (|data| - 1 - k) * intervalMs
    ensures forall j, k :: 0 <= j < k < |data| ==> data[j].timestamp < data[k].timestamp
  {
    forall j, k | 0 <= j < k < |data|
      ensures data[j].timestamp < data[k].timestamp
    {
      assert data[k].timestamp - data[j].timestamp == (k - j) * intervalMs;
    }
  }

  // ---------------------------------------------------------------------------
  // Transaction costs: calculateTransactionCosts
  // ---------------------------------------------------------------------------

  /** The fee fields of a reading that the dashboard keeps per chain. */
  datatype Prices = Prices(baseFee: real, priorityFee: real, totalFee: real)

  /** One chain's cost breakdown; the two-decimal string renderings of the source are
      represented by the numbers they render. */
  datatype TransactionCost = TransactionCost(
    gasInGwei: real,
    gasInEth: real,
    gasCostUsd: real,
    transactionValueUsd: real,
    totalCost: real,
    efficiency: JsNumber,
    networkName: string,
    networkColor: string)

  /** The cost of sending `transactionValue` ETH on a configured chain. */
  function CostFor(config: NetworkConfig, prices: Prices, ethUsdPrice: real, transactionValue: real)
    : (c: TransactionCost)
    ensures c.gasInGwei == prices.totalFee
    ensures c.gasInEth * GweiPerEth == prices.totalFee * config.gasLimit as real
    ensures c.gasCostUsd == c.gasInEth * ethUsdPrice
    ensures c.transactionValueUsd == transactionValue * ethUsdPrice
    ensures c.totalCost == c.transactionValueUsd + c.gasCostUsd
    ensures c.totalCost == transactionValue * ethUsdPrice + c.gasCostUsd
    ensures c.efficiency.Finite? <==> c.gasInEth != 0.0
    ensures c.efficiency.Finite? ==> c.efficiency.value * c.gasInEth == transactionValue
    ensures c.networkName == config.name && c.networkColor == config.color
  {
    var gasInEth := prices.totalFee * config.gasLimit as real / GweiPerEth;
    var gasCostUsd := gasInEth * ethUsdPrice;
    var transactionValueUsd := transactionValue * ethUsdPrice;
    TransactionCost(
      prices.totalFee,
      gasInEth,
      gasCostUsd,
      transactionValueUsd,
      transactionValueUsd + gasCostUsd,
      Divide(transactionValue, gasInEth),
      config.name,
      config.color)
  }

  /** At a positive exchange rate, a higher total fee always costs strictly more. */
  lemma TotalCostIncreasesWithFee(
    config: NetworkConfig, p: Prices, q: Prices, ethUsdPrice: real, transactionValue: real)
    requires config.gasLimit > 0 && ethUsdPrice > 0.0 && p.totalFee < q.totalFee
    ensures CostFor(config, p, ethUsdPrice, transactionValue).totalCost
          < CostFor(config, q, ethUsdPrice, transactionValue).totalCost
  {
    var g := config.gasLimit as real;
    assert p.totalFee * g < q.totalFee * g;
    assert p.totalFee * g / GweiPerEth < q.totalFee * g / GweiPerEth;
  }

  /** `calculateTransactionCosts(gasPrices, ethUsdPrice, transactionValue)`: chains without
      a network configuration are skipped, the rest keep their order. */
  function CalculateTransactionCosts(gasPrices: Dict<Prices>, ethUsdPrice: real, transactionValue: real)
    : (r: Dict<TransactionCost>)
    ensures forall c :: c in Keys(r) <==> c in Keys(gasPrices) && NetworkConfigOf(c).Some?
    ensures forall c :: c in Keys(r) ==>
      Get(r, c) == Some(CostFor(NetworkConfigOf(c).value, Get(gasPrices, c).value, ethUsdPrice, transactionValue))
    ensures DistinctKeys(gasPrices) ==> DistinctKeys(r)
    ensures Subsequence(Keys(r), Keys(gasPrices))
  {
    var configured := c => NetworkConfigOf(c).Some?;
    var cost := (c, p) requires NetworkConfigOf(c).Some? =>
      CostFor(NetworkConfigOf(c).value, p, ethUsdPrice, transactionValue);
    FilterMapInOrder(gasPrices, configured, cost);
    FilterMap(gasPrices, configured, cost)
  }

  // ---------------------------------------------------------------------------
  // Congestion: getNetworkStatus
  // ---------------------------------------------------------------------------

  datatype CongestionLevel = Low | Medium | High

  datatype NetworkStatus = NetworkStatus(
    congestionLevel: CongestionLevel,
    congestionRatio: JsNumber,
    recommendedAction: string,
    avgBlockTime: int)

  /** The threshold classifier: strictly above 2 is high, strictly above 1.5 is medium, and
      everything else, NaN included, is low. */
  function Classify(ratio: JsNumber): (level: CongestionLevel)
    ensures level == High <==> GreaterThan(ratio, 2.0)
    ensures level == Medium <==> !GreaterThan(ratio, 2.0) && GreaterThan(ratio, 1.5)
    ensures level == Low <==> !GreaterThan(ratio, 1.5)
  {
    if GreaterThan(ratio, 2.0) then High
    else if GreaterThan(ratio, 1.5) then Medium
    else Low
  }

  lemma ClassifyBoundaries()
    ensures Classify(Finite(1.5)) == Low
    ensures Classify(Finite(1.51)) == Medium
    ensures Classify(Finite(2.0)) == Medium
    ensures Classify(Finite(2.01)) == High
    ensures Classify(NaN) == Low
  {
  }

  /** The nominal seconds per block. */
  function AvgBlockTime(chain: Chain): (t: int)
    ensures t == 12 <==> chain == Ethereum
    ensures t == 2 <==> chain == Polygon
    ensures t == 1 <==> chain != Ethereum && chain != Polygon
  {
    if chain == Ethereum then 12 else if chain == Polygon then 2 else 1
  }

  const WaitAdvice := "Wait for lower fees"
  const GoAdvice := "Good time to transact"

  /** One chain's status. The ratio divides by the raw table entry, with no fallback to 10:
      for an unlisted chain the divisor is `undefined` and the ratio NaN. */
  function StatusOf(chain: Chain, prices: Prices): (s: NetworkStatus)
    ensures BaseGasPrice(chain).Some? ==>
      s.congestionRatio == Finite(prices.totalFee / BaseGasPrice(chain).value)
    ensures BaseGasPrice(chain).None? ==> s.congestionRatio == NaN && s.congestionLevel == Low
    ensures s.congestionLevel == Classify(s.congestionRatio)
    ensures s.recommendedAction == WaitAdvice <==> s.congestionLevel == High
    ensures s.recommendedAction == GoAdvice <==> s.congestionLevel != High
    ensures s.avgBlockTime == AvgBlockTime(chain)
  {
    var ratio := match BaseGasPrice(chain)
      case Some(baseGas) => Divide(prices.totalFee, baseGas)
      case None => NaN;
    var level := Classify(ratio);
    NetworkStatus(level, ratio, if level == High then WaitAdvice else GoAdvice, AvgBlockTime(chain))
  }

  /** An arbitrum reading of 2 gwei against its 0.8 baseline is congested. */
  lemma ArbitrumAtTwoGweiIsHigh(prices: Prices)
    requires prices.totalFee == 2.0
    ensures StatusOf(Arbitrum, prices).congestionRatio == Finite(2.5)
    ensures StatusOf(Arbitrum, prices).congestionLevel == High
    ensures StatusOf(Arbitrum, prices).recommendedAction == WaitAdvice
    ensures StatusOf(Arbitrum, prices).avgBlockTime == 1
  {
  }

  /** `getNetworkStatus(gasPrices)`: every chain, listed or not, gets a status, in key order. */
  function GetNetworkStatus(gasPrices: Dict<Prices>): (r: Dict<NetworkStatus>)
    ensures Keys(r) == Keys(gasPrices)
    ensures forall i :: 0 <= i < |r| ==> r[i].1 == StatusOf(gasPrices[i].0, gasPrices[i].1)
  {
    seq(|gasPrices|, i requires 0 <= i < |gasPrices| => (gasPrices[i].0, StatusOf(gasPrices[i].0, gasPrices[i].1)))
  }
}

=== FILE: gas_price_chart.dfy ===
/** The price chart (`src/components/GasPriceChart.js`): which chains get a line, the rows
    the line chart is fed, and the "Latest" figure under it.

    A chart row is `{time, <chain>_price, <chain>_baseFee, <chain>_priorityFee, …}`. Here the
    three fields of one chain are grouped into one `Columns` entry keyed by the chain, so a
    row holds a chain's fields exactly when it holds that entry. */
module GasPriceChart {
  import opened Wrappers
  import opened Dict
  import opened GasTracker

  datatype Columns = Columns(price: real, baseFee: real, priorityFee: real)

  /** One point of the chart; `time` is the first enabled chain's label, represented by the
      timestamp it is rendered from. */
  datatype ChartRow = ChartRow(time: int, columns: Dict<Columns>)

  /** `gasData[chain]`, with `[]` for a chain that is not there. */
  function Series(gasData: Dict<seq<Point>>, chain: Key): seq<Point> {
    Get(gasData, chain).GetOr([])
  }

  /** `Object.keys(gasData).filter(chain => gasData[chain].length > 0)`. */
  function EnabledChains(gasData: Dict<seq<Point>>): (cs: seq<Key>)
    ensures |cs| <= |gasData|
    ensures forall c :: c in cs ==> c in Keys(gasData)
  {
    if gasData == [] then []
    else
      ConsFacts(gasData[0], gasData[1..]);
      assert gasData == [gasData[0]] + gasData[1..];
      (if |gasData[0].1| > 0 then [gasData[0].0] else []) + EnabledChains(gasData[1..])
  }

  /** A chain gets a line exactly when its series is non-empty. */
  lemma {:induction false} EnabledIffNonEmpty(gasData: Dict<seq<Point>>, c: Key)
    requires DistinctKeys(gasData)
    ensures c in EnabledChains(gasData) <==> c in Keys(gasData) && |Series(gasData, c)| > 0
  {
    if gasData != [] {
      var e := gasData[0];
      var t := gasData[1..];
      assert gasData == [e] + t;
      ConsFacts(e, t);
      DistinctTail(Keys(gasData));
      assert Keys(gasData)[1..] == Keys(t);
      EnabledIffNonEmpty(t, c);
    }
  }

  /** The lines come in the order of the keys of `gasData`. */
  lemma {:induction false} EnabledInKeyOrder(gasData: Dict<seq<Point>>)
    ensures Subsequence(EnabledChains(gasData), Keys(gasData))
  {
    if gasData != [] {
      var t := gasData[1..];
      EnabledInKeyOrder(t);
      assert Keys(gasData)[1..] == Keys(t);
      if |gasData[0].1| > 0 {
        assert EnabledChains(gasData)[1..] == EnabledChains(t);
        assert EnabledChains(gasData)[0] == Keys(gasData)[0];
      } else {
        assert EnabledChains(gasData) == EnabledChains(t);
      }
    }
  }

  /** The columns one point contributes. */
  function ColumnsOf(p: Point): Columns {
    Columns(p.price, p.baseFee, p.priorityFee)
  }

  /** The `forEach` over the enabled chains for row `index`: a chain whose series has an item
      there contributes that item's fields, in chain order. */
  function ColumnsAt(gasData: Dict<seq<Point>>, chains: seq<Key>, index: nat): (r: Dict<Columns>)
    ensures forall c :: c in Keys(r) <==> c in chains && index < |Series(gasData, c)|
    ensures Distinct(chains) ==> DistinctKeys(r)
    ensures Distinct(chains) ==> forall c :: c in Keys(r) ==>
      Get(r, c) == Some(ColumnsOf(Series(gasData, c)[index]))
  {
    if chains == [] then []
    else
      var c := chains[0];
      var s := Series(gasData, c);
      var rest := ColumnsAt(gasData, chains[1..], index);
      assert chains == [c] + chains[1..];
      assert Distinct(chains) ==> Distinct(chains[1..]) && c !in chains[1..] by {
        if Distinct(chains) {
          DistinctTail(chains);
        }
      }
      if index < |s| then
        var e := (c, ColumnsOf(s[index]));
        ConsFacts(e, rest);
        assert Distinct(chains) ==> DistinctKeys([e] + rest) by {
          if Distinct(chains) {
            forall i, j | 0 <= i < j < |Keys([e] + rest)| ensures Keys([e] + rest)[i] != Keys([e] + rest)[j] {
              if i == 0 {
                assert Keys(rest)[j - 1] in Keys(rest);
              } else {
                assert Keys([e] + rest)[i] == Keys(rest)[i - 1];
              }
            }
          }
        }
        [e] + rest
      else rest
  }

  /** `combineData()`: nothing when no chain is enabled; otherwise one row per item of the
      first enabled chain's series, labelled with that item's time. */
  function CombineData(gasData: Dict<seq<Point>>): (rows: seq<ChartRow>)
    ensures EnabledChains(gasData) == [] ==> rows == []
    ensures EnabledChains(gasData) != [] ==>
      var base := Series(gasData, EnabledChains(gasData)[0]);
      && |rows| == |base|
      && forall i :: 0 <= i < |rows| ==> rows[i].time == base[i].timestamp
    ensures forall i :: 0 <= i < |rows| ==> rows[i].columns == ColumnsAt(gasData, EnabledChains(gasData), i)
  {
    var enabled := EnabledChains(gasData);
    if enabled == [] then []
    else
      var base := Series(gasData, enabled[0]);
      seq(|base|, i requires 0 <= i < |base| => ChartRow(base[i].timestamp, ColumnsAt(gasData, enabled, i)))
  }

  /** Distinct keys give distinct enabled chains. */
  lemma {:induction false} EnabledDistinct(gasData: Dict<seq<Point>>)
    requires DistinctKeys(gasData)
    ensures Distinct(EnabledChains(gasData))
  {
    if gasData != [] {
      var t := gasData[1..];
      DistinctTail(Keys(gasData));
      assert Keys(gasData)[1..] == Keys(t);
      EnabledDistinct(t);
      var cs := EnabledChains(gasData);
      if |gasData[0].1| > 0 {
        assert cs == [gasData[0].0] + EnabledChains(t);
        forall i, j | 0 <= i < j < |cs| ensures cs[i] != cs[j] {
          assert cs[j] == EnabledChains(t)[j - 1];
          if i > 0 {
            assert cs[i] == EnabledChains(t)[i - 1];
          }
        }
      }
    }
  }

  /** Row `i` carries a chain's fields exactly when the chain is enabled and its series has an
      item at `i`, and then they are that item's fields, unchanged. A chart with rows at all
      is one with an enabled chain. */
  lemma RowColumns(gasData: Dict<seq<Point>>, i: int, c: Key)
    requires DistinctKeys(gasData) && 0 <= i
    ensures i < |CombineData(gasData)| ==>
      (c in Keys(CombineData(gasData)[i].columns) <==>
        |Series(gasData, c)| > 0 && c in Keys(gasData) && i < |Series(gasData, c)|)
    ensures i < |CombineData(gasData)| && c in Keys(CombineData(gasData)[i].columns) ==>
      Get(CombineData(gasData)[i].columns, c) == Some(ColumnsOf(Series(gasData, c)[i]))
  {
    EnabledIffNonEmpty(gasData, c);
    EnabledDistinct(gasData);
  }

  /** With distinct keys, the chart is empty exactly when no chain has any data. */
  lemma EmptyIffNothingEnabled(gasData: Dict<seq<Point>>)
    requires DistinctKeys(gasData)
    ensures CombineData(gasData) == [] <==> forall c :: c in Keys(gasData) ==> Series(gasData, c) == []
  {
    var enabled := EnabledChains(gasData);
    if enabled != [] {
      EnabledIffNonEmpty(gasData, enabled[0]);
    } else {
      forall c | c in Keys(gasData) ensures Series(gasData, c) == [] {
        EnabledIffNonEmpty(gasData, c);
      }
    }
  }

  /** The "Latest" figure of every enabled chain: its series' last point, `None` where
      `latestData` is undefined and the figure is skipped. */
  function Latest(gasData: Dict<seq<Point>>): (ls: seq<(Key, Option<Point>)>)
    ensures |ls| == |EnabledChains(gasData)|
    ensures forall k :: 0 <= k < |ls| ==> ls[k].0 == EnabledChains(gasData)[k]
    ensures forall k :: 0 <= k < |ls| ==> (ls[k].1.Some? <==> |Series(gasData, ls[k].0)| > 0)
    ensures forall k :: 0 <= k < |ls| && ls[k].1.Some? ==>
      var s := Series(gasData, ls[k].0); ls[k].1.value == s[|s| - 1]
  {
    var enabled := EnabledChains(gasData);
    seq(|enabled|, k requires 0 <= k < |enabled| =>
      var s := Series(gasData, enabled[k]);
      (enabled[k], if |s| > 0 then Some(s[|s| - 1]) else None))
  }

  /** With distinct keys no enabled chain's figure is skipped. */
  lemma LatestNeverSkipped(gasData: Dict<seq<Point>>, k: int)
    requires DistinctKeys(gasData)
    requires 0 <= k < |Latest(gasData)|
    ensures Latest(gasData)[k].1.Some?
  {
    EnabledIffNonEmpty(gasData, Latest(gasData)[k].0);
  }

  /** On a dashboard whose latest points and current prices are in step, the figure under the
      chart for a chain is the total fee the prices panel shows for it. */
  lemma LatestIsCurrentPrice(d: Dashboard, k: int)
    requires DistinctKeys(d.gasData)
    requires 0 <= k < |Latest(d.gasData)|
    requires InStep(d, Latest(d.gasData)[k].0)
    ensures Latest(d.gasData)[k].1.Some? && Get(d.currentPrices, Latest(d.gasData)[k].0).Some?
    ensures Latest(d.gasData)[k].1.value.price == Get(d.currentPrices, Latest(d.gasData)[k].0).value.totalFee
  {
    LatestNeverSkipped(d.gasData, k);
    var c := Latest(d.gasData)[k].0;
    var s := Series(d.gasData, c);
    assert |s| > 0 && Get(d.gasData, c) == Some(s);
    assert Get(d.currentPrices, c) == Some(LatestPrices(s));
  }
}

=== FILE: gas_tracker.dfy ===
/** The dashboard's state and the pure transforms its hooks apply to it
    (`src/components/GasTracker.js`): the 6-second tick, the initial 20-point seeding, the
    cost simulation and the rule that reruns it in live mode.

    React state becomes a `Dashboard` record and each `set…(prev => …)` updater a function
    on it. The clock, the local hour and the random draws are arguments, as in
    `GasDataService`. */
module GasTracker {
  import opened Wrappers
  import opened Numbers
  import opened Dict
  import opened GasDataService

  /** One series entry `{time, price, baseFee, priorityFee, timestamp}`. The `time` label is
      the locale rendering of `timestamp` and is represented by it. */
  datatype Point = Point(price: real, baseFee: real, priorityFee: real, timestamp: int)

  datatype Mode = Live | Simulation

  /** One chain's simulated cost; the string renderings are represented by their numbers. */
  datatype SimulationResult = SimulationResult(
    gasInGwei: real,
    gasInEth: real,
    gasCostUsd: real,
    totalCost: real)

  /** The component's state. `transactionValue` is the input box after `parseFloat`, `None`
      standing for NaN. */
  datatype Dashboard = Dashboard(
    gasData: Dict<seq<Point>>,
    currentPrices: Dict<Prices>,
    ethUsdPrice: real,
    simulationMode: Mode,
    transactionValue: Option<real>,
    simulationResults: Option<Dict<SimulationResult>>)

  /** The chains the dashboard tracks, in the order the tick and the seeding visit them. */
  const Chains: seq<Chain> := [Ethereum, Polygon, Arbitrum]

  /** The rolling window's capacity: `slice(-19)` plus the new point. */
  const HistoryLimit: int := 20

  /** The tick period, also the spacing of the seeded points. */
  const TickMs: int := 6000

  /** The fixed gas limit of the inline simulation. */
  const SimulationGasLimit: real := 21000.0

  /** The state before any effect has run. */
  function Initial(): (d: Dashboard)
    ensures WellFormed(d)
    ensures Keys(d.gasData) == Chains && Keys(d.currentPrices) == Chains
    ensures forall c :: c in Chains ==> Get(d.gasData, c) == Some([])
    ensures forall c :: c in Chains ==> Get(d.currentPrices, c) == Some(Prices(0.0, 0.0, 0.0))
    ensures d.ethUsdPrice == 2400.0 && d.simulationMode == Live
    ensures d.transactionValue == Some(0.5) && d.simulationResults == None
  {
    Dashboard(AllChains([]), AllChains(Prices(0.0, 0.0, 0.0)), 2400.0, Live, Some(0.5), None)
  }

  /** `{ethereum: v, polygon: v, arbitrum: v}`. */
  function AllChains<V>(v: V): (d: Dict<V>)
    ensures Keys(d) == Chains && DistinctKeys(d)
    ensures forall c :: c in Chains ==> Get(d, c) == Some(v)
    ensures forall e :: e in d ==> e.1 == v
  {
    var d := [(Ethereum, v), (Polygon, v), (Arbitrum, v)];
    assert Keys(d) == Chains;
    TrackedChainsDistinct();
    d
  }

  predicate Tracks(d: Dashboard, chain: Chain) {
    chain in Keys(d.gasData) && chain in Keys(d.currentPrices)
  }

  /** The facts every state of the component keeps: both objects have the three chains as
      distinct keys, and no series is longer than the window. */
  predicate WellFormed(d: Dashboard) {
    && DistinctKeys(d.gasData) && DistinctKeys(d.currentPrices)
    && (forall c :: c in Chains ==> Tracks(d, c))
    && forall e :: e in d.gasData ==> |e.1| <= HistoryLimit
  }

  // ---------------------------------------------------------------------------
  // The rolling window
  // ---------------------------------------------------------------------------

  /** `[...series.slice(-19), point]`. */
  function AppendWindow(series: seq<Point>, point: Point): (r: seq<Point>)
    ensures |r| == if |series| < HistoryLimit then |series| + 1 else HistoryLimit
    ensures r[|r| - 1] == point
    ensures r[..|r| - 1] == series[|series| - (|r| - 1)..]
  {
    var keep := if |series| < HistoryLimit then |series| else HistoryLimit - 1;
    series[|series| - keep..] + [point]
  }

  /** The last `HistoryLimit` elements of `s`, or all of them if there are fewer. */
  function Window(s: seq<Point>): seq<Point> {
    if |s| <= HistoryLimit then s else s[|s| - HistoryLimit..]
  }

  /** Feeding points one at a time through the window. */
  function AppendAll(series: seq<Point>, points: seq<Point>): seq<Point>
    decreases |points|
  {
    if points == [] then series else AppendAll(AppendWindow(series, points[0]), points[1..])
  }

  /** However many points have gone through the window, it holds exactly the most recent
      `HistoryLimit` of everything appended, oldest first. */
  lemma {:induction false} WindowKeepsMostRecent(series: seq<Point>, points: seq<Point>)
    requires |series| <= HistoryLimit
    ensures AppendAll(series, points) == Window(series + points)
    decreases |points|
  {
    if points == [] {
      assert series + points == series;
    } else {
      var s1 := AppendWindow(series, points[0]);
      var rest := points[1..];
      calc {
        AppendAll(series, points);
        AppendAll(s1, rest);
        { WindowKeepsMostRecent(s1, rest); }
        Window(s1 + rest);
        { AppendIsWindow(series, points[0]); }
        Window(Window(series + [points[0]]) + rest);
        { WindowOfWindow(series + [points[0]], rest); }
        Window((series + [points[0]]) + rest);
        { assert (series + [points[0]]) + rest == series + points; }
        Window(series + points);
      }
    }
  }

  /** One append is the window of the extended series. */
  lemma AppendIsWindow(series: seq<Point>, point: Point)
    ensures AppendWindow(series, point) == Window(series + [point])
  {
    var r := AppendWindow(series, point);
    var w := Window(series + [point]);
    assert |r| == |w|;
    forall i | 0 <= i < |r|
      ensures r[i] == w[i]
    {
      if i < |r| - 1 {
        assert r[i] == series[|series| - (|r| - 1) + i];
      }
    }
  }

  lemma {:induction false} WindowOfWindow(a: seq<Point>, b: seq<Point>)
    ensures Window(Window(a) + b) == Window(a + b)
  {
    if |a| > HistoryLimit {
      var w := a[|a| - HistoryLimit..];
      assert Window(a) == w;
      if b == [] {
        assert a + b == a && w + b == w;
      } else {
        assert w + b == (a + b)[|a| - HistoryLimit..];
        assert Window(w + b) == (w + b)[|b|..];
        assert Window(a + b) == (a + b)[|a| + |b| - HistoryLimit..];
      }
    }
  }

  // ---------------------------------------------------------------------------
  // The tick
  // ---------------------------------------------------------------------------

  /** The series entry made from a reading: its price is the reading's total fee. */
  function PointFrom(r: GasReading): Point {
    Point(r.totalFee, r.baseFee, r.priorityFee, r.timestamp)
  }

  function PricesFrom(r: GasReading): Prices {
    Prices(r.baseFee, r.priorityFee, r.totalFee)
  }

  /** One chain's part of the tick: `setGasData` appends the new reading to that chain's
      window, `setCurrentPrices` replaces that chain's prices. */
  function TickChain(d: Dashboard, chain: Chain, reading: GasReading): (r: Dashboard)
    requires chain in Keys(d.gasData)
    ensures Get(r.gasData, chain) == Some(AppendWindow(Get(d.gasData, chain).value, PointFrom(reading)))
    ensures Get(r.currentPrices, chain) == Some(PricesFrom(reading))
    ensures forall c :: c != chain ==> Get(r.gasData, c) == Get(d.gasData, c)
    ensures forall c :: c != chain ==> Get(r.currentPrices, c) == Get(d.currentPrices, c)
    ensures Keys(r.gasData) == Keys(d.gasData)
    ensures chain in Keys(d.currentPrices) ==> Keys(r.currentPrices) == Keys(d.currentPrices)
    ensures r.(gasData := d.gasData, currentPrices := d.currentPrices) == d
    ensures WellFormed(d) ==> WellFormed(r)
  {
    var series := AppendWindow(Get(d.gasData, chain).value, PointFrom(reading));
    var g := Put(d.gasData, chain, series);
    var ps := Put(d.currentPrices, chain, PricesFrom(reading));
    assert && Get(g, chain) == Some(series)
           && (forall c :: c != chain ==> Get(g, c) == Get(d.gasData, c))
           && Keys(g) == Keys(d.gasData)
           && ((forall e :: e in d.gasData ==> |e.1| <= HistoryLimit) ==> forall e :: e in g ==> |e.1| <= HistoryLimit)
    by {
      PutGet(d.gasData, chain, series);
      PutKeys(d.gasData, chain, series);
      PutEntries(d.gasData, chain, series);
    }
    assert && Get(ps, chain) == Some(PricesFrom(reading))
           && (forall c :: c != chain ==> Get(ps, c) == Get(d.currentPrices, c))
           && (chain in Keys(d.currentPrices) ==> Keys(ps) == Keys(d.currentPrices))
           && (forall c :: c in Keys(d.currentPrices) ==> c in Keys(ps))
           && (DistinctKeys(d.currentPrices) ==> DistinctKeys(ps))
    by {
      PutGet(d.currentPrices, chain, PricesFrom(reading));
      PutKeys(d.currentPrices, chain, PricesFrom(reading));
      PutKeepsDistinct(d.currentPrices, chain, PricesFrom(reading));
    }
    d.(gasData := g, currentPrices := ps)
  }

  /** Between `d` and `r`, `chain`'s window took in `reading` and its prices became the
      reading's. */
  predicate TickedChain(d: Dashboard, r: Dashboard, chain: Chain, reading: GasReading) {
    && Get(d.gasData, chain).Some?
    && Get(r.gasData, chain) == Some(AppendWindow(Get(d.gasData, chain).value, PointFrom(reading)))
    && Get(r.currentPrices, chain) == Some(PricesFrom(reading))
  }

  /** The readings the interval callback generates at clock reading `timestamp`: one per
      tracked chain, in order, all at the same local `hour`, `draws[k]` feeding the k-th. */
  function TickReadings(timestamp: int, hour: int, draws: seq<Draws>): (rs: seq<GasReading>)
    requires |draws| == |Chains| && forall k :: 0 <= k < |draws| ==> ValidDraws(draws[k])
    ensures |rs| == |Chains|
    ensures forall k :: 0 <= k < |rs| ==> rs[k].chain == Chains[k] && rs[k].timestamp == timestamp
    ensures forall k :: 0 <= k < |rs| ==> rs[k] == GenerateMockGasData(Chains[k], hour, timestamp, draws[k])
  {
    seq(|Chains|, k requires 0 <= k < |Chains| => GenerateMockGasData(Chains[k], hour, timestamp, draws[k]))
  }

  /** The tick's readings are for the tracked chains, in order. */
  lemma ChainsOfTick(timestamp: int, hour: int, draws: seq<Draws>)
    requires |draws| == |Chains| && forall k :: 0 <= k < |draws| ==> ValidDraws(draws[k])
    ensures ChainsOf(TickReadings(timestamp, hour, draws)) == Chains
    ensures Distinct(Chains)
  {
    TrackedChainsDistinct();
    var cs := ChainsOf(TickReadings(timestamp, hour, draws));
    assert cs[0] == Chains[0] && cs[1] == Chains[1] && cs[2] == Chains[2];
  }

  /** The chains a list of readings is for, in order. */
  function ChainsOf(readings: seq<GasReading>): (cs: seq<Chain>)
    ensures |cs| == |readings|
    ensures forall k :: 0 <= k < |cs| ==> cs[k] == readings[k].chain
  {
    if readings == [] then [] else [readings[0].chain] + ChainsOf(readings[1..])
  }

  /** The per-chain updates of one tick, applied in order. The shape of the state is kept,
      and a chain without a reading is untouched. */
  function TickAll(d: Dashboard, readings: seq<GasReading>): (r: Dashboard)
    requires WellFormed(d)
    requires forall c :: c in ChainsOf(readings) ==> c in Keys(d.gasData)
    ensures WellFormed(r)
    ensures Keys(r.gasData) == Keys(d.gasData)
    ensures forall c :: c !in ChainsOf(readings) ==>
      Get(r.gasData, c) == Get(d.gasData, c) && Get(r.currentPrices, c) == Get(d.currentPrices, c)
    ensures (forall c :: c in ChainsOf(readings) ==> c in Keys(d.currentPrices)) ==>
      Keys(r.currentPrices) == Keys(d.currentPrices)
    ensures r.(gasData := d.gasData, currentPrices := d.currentPrices) == d
    decreases |readings|
  {
    if readings == [] then d
    else TickAll(TickChain(d, readings[0].chain, readings[0]), readings[1..])
  }

  /** When the readings are for distinct chains, each chain's window takes in its own
      reading and its prices become that reading's. */
  lemma {:induction false} TickAllTicksEach(d: Dashboard, readings: seq<GasReading>, k: int)
    requires WellFormed(d)
    requires forall c :: c in ChainsOf(readings) ==> c in Keys(d.gasData)
    requires Distinct(ChainsOf(readings))
    requires 0 <= k < |readings|
    ensures TickedChain(d, TickAll(d, readings), readings[k].chain, readings[k])
    decreases |readings|
  {
    var rest := readings[1..];
    assert readings[0].chain in Keys(d.gasData) && readings[0].chain !in ChainsOf(rest)
      && Distinct(ChainsOf(rest)) && (k > 0 ==> rest[k - 1] == readings[k] && readings[k].chain != readings[0].chain)
    by {
      if k > 0 {
        assert ChainsOf(rest)[k - 1] == rest[k - 1].chain;
      }
      var cs := ChainsOf(readings);
      assert cs[0] == readings[0].chain && cs[1..] == ChainsOf(rest);
      DistinctTail(cs);
    }
    var d1 := TickChain(d, readings[0].chain, readings[0]);
    if k == 0 {
      TickAllFirst(d, readings);
    } else {
      TickAllTicksEach(d1, rest, k - 1);
      assert TickAll(d, readings) == TickAll(d1, rest);
      assert Get(d1.gasData, readings[k].chain) == Get(d.gasData, readings[k].chain);
    }
  }

  /** The first reading's chain is not touched again by the rest of the tick. */
  lemma TickAllFirst(d: Dashboard, readings: seq<GasReading>)
    requires WellFormed(d) && readings != []
    requires forall c :: c in ChainsOf(readings) ==> c in Keys(d.gasData)
    requires readings[0].chain in Keys(d.gasData) && readings[0].chain !in ChainsOf(readings[1..])
    ensures TickedChain(d, TickAll(d, readings), readings[0].chain, readings[0])
  {
  }

  /** The interval callback at clock reading `timestamp`: ethereum, polygon and arbitrum take
      in fresh readings in that order (`draws[k]` for the k-th), then the exchange rate is
      replaced. Any other chain is left exactly as it was. */
  function Tick(d: Dashboard, timestamp: int, hour: int, draws: seq<Draws>, ethUsdPrice: real): (r: Dashboard)
    requires WellFormed(d)
    requires |draws| == |Chains| && forall k :: 0 <= k < |draws| ==> ValidDraws(draws[k])
    ensures WellFormed(r)
    ensures Keys(r.gasData) == Keys(d.gasData)
    ensures forall c :: c !in Chains ==>
      Get(r.gasData, c) == Get(d.gasData, c) && Get(r.currentPrices, c) == Get(d.currentPrices, c)
    ensures Keys(r.currentPrices) == Keys(d.currentPrices)
    ensures r.ethUsdPrice == ethUsdPrice
    ensures r.(gasData := d.gasData, currentPrices := d.currentPrices, ethUsdPrice := d.ethUsdPrice) == d
  {
    ChainsOfTick(timestamp, hour, draws);
    TickAll(d, TickReadings(timestamp, hour, draws)).(ethUsdPrice := ethUsdPrice)
  }

  /** In a tick, the k-th tracked chain's window takes in the reading made from `draws[k]`,
      and its prices become that reading's. */
  lemma TickUpdatesTracked(d: Dashboard, timestamp: int, hour: int, draws: seq<Draws>, ethUsdPrice: real, k: int)
    requires WellFormed(d)
    requires |draws| == |Chains| && forall k :: 0 <= k < |draws| ==> ValidDraws(draws[k])
    requires 0 <= k < |Chains|
    ensures TickedChain(d, Tick(d, timestamp, hour, draws, ethUsdPrice), Chains[k],
      GenerateMockGasData(Chains[k], hour, timestamp, draws[k]))
  {
    ChainsOfTick(timestamp, hour, draws);
    TickAllTicksEach(d, TickReadings(timestamp, hour, draws), k);
  }

  // ---------------------------------------------------------------------------
  // The initial load
  // ---------------------------------------------------------------------------

  /** The 20 points `initialLoad` builds for one chain at clock reading `now`: the loop runs
      `i` from 19 down to 0, so the k-th point pushed is for `now - (19 - k) * 6000` and is
      generated from `draws[k]`. */
  function SeedSeries(chain: Chain, now: int, hourOf: int -> int, draws: seq<Draws>): (s: seq<Point>)
    requires |draws| == HistoryLimit && forall k :: 0 <= k < |draws| ==> ValidDraws(draws[k])
    ensures |s| == HistoryLimit
    ensures s[|s| - 1].timestamp == now
    ensures forall k :: 0 <= k < |s| ==> s[k].timestamp == now - (|s| - 1 - k) * TickMs
    ensures forall j, k :: 0 <= j < k < |s| ==> s[j].timestamp < s[k].timestamp
    ensures forall k :: 0 <= k < |s| ==>
      s[k] == PointFrom(GenerateMockGasData(chain, hourOf(s[k].timestamp), s[k].timestamp, draws[k]))
  {
    seq(HistoryLimit, k requires 0 <= k < HistoryLimit => SeedPoint(chain, now - (HistoryLimit - 1 - k) * TickMs, hourOf, draws[k]))
  }

  /** The point generated for clock reading `t`, at the local hour of `t`. */
  function SeedPoint(chain: Chain, t: int, hourOf: int -> int, draw: Draws): (p: Point)
    requires ValidDraws(draw)
    ensures p.timestamp == t
    ensures p == PointFrom(GenerateMockGasData(chain, hourOf(t), t, draw))
  {
    PointFrom(GenerateMockGasData(chain, hourOf(t), t, draw))
  }

  /** `initialLoad`'s loop builds the same points as `generateHistoricalGasData(chain, 20,
      6000)` at the same clock reading and draws, less their block numbers. */
  method SeedIsHistorical(chain: Chain, now: int, hourOf: int -> int, draws: seq<Draws>)
    returns (s: seq<Point>)
    requires |draws| == HistoryLimit && forall k :: 0 <= k < |draws| ==> ValidDraws(draws[k])
    ensures s == SeedSeries(chain, now, hourOf, draws)
  {
    var data := GenerateHistoricalGasData(chain, HistoryLimit, TickMs, now, hourOf, draws);
    s := WithoutBlocks(data);
    forall k | 0 <= k < HistoryLimit
      ensures s[k] == SeedSeries(chain, now, hourOf, draws)[k]
    {
      var t := now - (HistoryLimit - 1 - k) * TickMs;
      assert data[k].timestamp == t;
      HistoricalMatchesSeed(chain, now, hourOf, draws, data[k], k);
    }
  }

  /** A historical point as a series entry: the block number dropped. */
  function WithoutBlock(h: HistoricalPoint): Point {
    Point(h.price, h.baseFee, h.priorityFee, h.timestamp)
  }

  function WithoutBlocks(data: seq<HistoricalPoint>): (s: seq<Point>)
    ensures |s| == |data|
    ensures forall k :: 0 <= k < |data| ==> s[k] == WithoutBlock(data[k])
  {
    seq(|data|, k requires 0 <= k < |data| => WithoutBlock(data[k]))
  }

  lemma PointMatchesSeed(chain: Chain, t: int, hourOf: int -> int, draw: Draws, h: HistoricalPoint)
    requires ValidDraws(draw)
    requires h == PointOf(GenerateMockGasData(chain, hourOf(t), t, draw))
    ensures WithoutBlock(h) == SeedPoint(chain, t, hourOf, draw)
  {
  }

  /** Point k of a 20-point, 6000 ms historical series at `now`, less its block number, is
      point k of the seeded one. */
  lemma HistoricalMatchesSeed(chain: Chain, now: int, hourOf: int -> int, draws: seq<Draws>, h: HistoricalPoint, k: int)
    requires |draws| == HistoryLimit && forall k :: 0 <= k < |draws| ==> ValidDraws(draws[k])
    requires 0 <= k < HistoryLimit
    requires var t := now - (HistoryLimit - 1 - k) * TickMs;
      h == PointOf(GenerateMockGasData(chain, hourOf(t), t, draws[k]))
    ensures WithoutBlock(h) == SeedSeries(chain, now, hourOf, draws)[k]
  {
    PointMatchesSeed(chain, now - (HistoryLimit - 1 - k) * TickMs, hourOf, draws[k], h);
  }

  /** One chain's part of `initialLoad`: its series is replaced by the seeded one and its
      current prices by that series' last point. */
  function LoadChain(d: Dashboard, chain: Chain, series: seq<Point>): (r: Dashboard)
    requires |series| == HistoryLimit
    ensures Seeded(r, chain, series)
    ensures forall c :: c != chain ==> Get(r.gasData, c) == Get(d.gasData, c)
    ensures forall c :: c != chain ==> Get(r.currentPrices, c) == Get(d.currentPrices, c)
    ensures chain in Keys(d.gasData) ==> Keys(r.gasData) == Keys(d.gasData)
    ensures chain in Keys(d.currentPrices) ==> Keys(r.currentPrices) == Keys(d.currentPrices)
    ensures r.(gasData := d.gasData, currentPrices := d.currentPrices) == d
    ensures WellFormed(d) ==> WellFormed(r)
  {
    var prices := LatestPrices(series);
    var g := Put(d.gasData, chain, series);
    var ps := Put(d.currentPrices, chain, prices);
    assert && Get(g, chain) == Some(series)
           && (forall c :: c != chain ==> Get(g, c) == Get(d.gasData, c))
           && (chain in Keys(d.gasData) ==> Keys(g) == Keys(d.gasData))
           && (forall c :: c in Keys(d.gasData) ==> c in Keys(g))
           && (DistinctKeys(d.gasData) ==> DistinctKeys(g))
           && ((forall e :: e in d.gasData ==> |e.1| <= HistoryLimit) ==> forall e :: e in g ==> |e.1| <= HistoryLimit)
    by {
      PutGet(d.gasData, chain, series);
      PutKeys(d.gasData, chain, series);
      PutEntries(d.gasData, chain, series);
      PutKeepsDistinct(d.gasData, chain, series);
    }
    assert && Get(ps, chain) == Some(prices)
           && (forall c :: c != chain ==> Get(ps, c) == Get(d.currentPrices, c))
           && (chain in Keys(d.currentPrices) ==> Keys(ps) == Keys(d.currentPrices))
           && (forall c :: c in Keys(d.currentPrices) ==> c in Keys(ps))
           && (DistinctKeys(d.currentPrices) ==> DistinctKeys(ps))
    by {
      PutGet(d.currentPrices, chain, prices);
      PutKeys(d.currentPrices, chain, prices);
      PutKeepsDistinct(d.currentPrices, chain, prices);
    }
    d.(gasData := g, currentPrices := ps)
  }

  /** The prices `initialLoad` takes from the last point of a seeded series. */
  function LatestPrices(series: seq<Point>): (p: Prices)
    requires |series| > 0
    ensures forall g :: series[|series| - 1] == PointFrom(g) ==> p == PricesFrom(g)
  {
    var latest := series[|series| - 1];
    Prices(latest.baseFee, latest.priorityFee, latest.price)
  }

  /** In `r`, `chain` holds `series` and the prices of its last point. */
  predicate Seeded(r: Dashboard, chain: Chain, series: seq<Point>)
    requires |series| > 0
  {
    Get(r.gasData, chain) == Some(series) && Get(r.currentPrices, chain) == Some(LatestPrices(series))
  }

  /** `initialLoad()` at clock reading `now`; `draws[k]` feeds the k-th of ethereum, polygon
      and arbitrum. */
  function InitialLoad(d: Dashboard, now: int, hourOf: int -> int, draws: seq<seq<Draws>>): (r: Dashboard)
    requires WellFormed(d)
    requires |draws| == 3
    requires forall k, j :: 0 <= k < |draws| && 0 <= j < |draws[k]| ==> ValidDraws(draws[k][j])
    requires forall k :: 0 <= k < |draws| ==> |draws[k]| == HistoryLimit
    ensures WellFormed(r)
    ensures Seeded(r, Ethereum, SeedSeries(Ethereum, now, hourOf, draws[0]))
    ensures Seeded(r, Polygon, SeedSeries(Polygon, now, hourOf, draws[1]))
    ensures Seeded(r, Arbitrum, SeedSeries(Arbitrum, now, hourOf, draws[2]))
    ensures Keys(r.gasData) == Keys(d.gasData) && Keys(r.currentPrices) == Keys(d.currentPrices)
    ensures forall c :: c !in Chains ==>
      Get(r.gasData, c) == Get(d.gasData, c) && Get(r.currentPrices, c) == Get(d.currentPrices, c)
    ensures r.(gasData := d.gasData, currentPrices := d.currentPrices) == d
    ensures r.ethUsdPrice == d.ethUsdPrice && r.simulationResults == d.simulationResults
  {
    LoadTracked(d, SeedSeries(Ethereum, now, hourOf, draws[0]),
      SeedSeries(Polygon, now, hourOf, draws[1]), SeedSeries(Arbitrum, now, hourOf, draws[2]))
  }

  /** Loading the three tracked chains in turn seeds each of them and leaves the key order,
      every other chain and every other field as they were. */
  function LoadTracked(d: Dashboard, s0: seq<Point>, s1: seq<Point>, s2: seq<Point>): (r: Dashboard)
    requires WellFormed(d)
    requires |s0| == HistoryLimit && |s1| == HistoryLimit && |s2| == HistoryLimit
    ensures WellFormed(r)
    ensures Seeded(r, Ethereum, s0) && Seeded(r, Polygon, s1) && Seeded(r, Arbitrum, s2)
    ensures Keys(r.gasData) == Keys(d.gasData) && Keys(r.currentPrices) == Keys(d.currentPrices)
    ensures forall c :: c !in Chains ==>
      Get(r.gasData, c) == Get(d.gasData, c) && Get(r.currentPrices, c) == Get(d.currentPrices, c)
    ensures r.(gasData := d.gasData, currentPrices := d.currentPrices) == d
  {
    TrackedChainsDistinct();
    assert Chains[0] == Ethereum && Chains[1] == Polygon && Chains[2] == Arbitrum;
    assert Tracks(d, Ethereum) && Tracks(d, Polygon) && Tracks(d, Arbitrum);
    var d1 := LoadChain(d, Ethereum, s0);
    var d2 := LoadChain(d1, Polygon, s1);
    var r := LoadChain(d2, Arbitrum, s2);
    assert forall c :: c !in Chains ==>
      Get(r.gasData, c) == Get(d.gasData, c) && Get(r.currentPrices, c) == Get(d.currentPrices, c)
    by {
      forall c | c !in Chains
        ensures Get(r.gasData, c) == Get(d.gasData, c) && Get(r.currentPrices, c) == Get(d.currentPrices, c)
      {
        assert c != Ethereum && c != Polygon && c != Arbitrum;
      }
    }
    r
  }

  /** Feeding a seeded series point by point through the rolling window from empty rebuilds
      it unchanged: 20 points, the last one at `now`. */
  lemma SeedThroughWindow(chain: Chain, now: int, hourOf: int -> int, draws: seq<Draws>)
    requires |draws| == HistoryLimit && forall k :: 0 <= k < |draws| ==> ValidDraws(draws[k])
    ensures var s := SeedSeries(chain, now, hourOf, draws);
      AppendAll([], s) == s && |AppendAll([], s)| == HistoryLimit && AppendAll([], s)[HistoryLimit - 1].timestamp == now
  {
    var s := SeedSeries(chain, now, hourOf, draws);
    WindowKeepsMostRecent([], s);
    assert [] + s == s;
  }

  // ---------------------------------------------------------------------------
  // The latest point and the current prices
  // ---------------------------------------------------------------------------

  /** A chain's last series point and its current prices agree (the point's `price` being
      the prices' `totalFee`). */
  predicate InStep(d: Dashboard, chain: Chain) {
    match Get(d.gasData, chain)
    case Some(s) => |s| > 0 ==> Get(d.currentPrices, chain) == Some(LatestPrices(s))
    case None => true
  }

  /** Every tick leaves all chains in step: the three tracked ones because the same reading
      feeds both updates, the others because they are untouched. */
  lemma TickKeepsInStep(d: Dashboard, timestamp: int, hour: int, draws: seq<Draws>, ethUsdPrice: real, c: Chain)
    requires WellFormed(d)
    requires |draws| == |Chains| && forall k :: 0 <= k < |draws| ==> ValidDraws(draws[k])
    requires c !in Chains ==> InStep(d, c)
    ensures InStep(Tick(d, timestamp, hour, draws, ethUsdPrice), c)
  {
    var r := Tick(d, timestamp, hour, draws, ethUsdPrice);
    if c in Chains {
      var k :| 0 <= k < |Chains| && Chains[k] == c;
      TickUpdatesTracked(d, timestamp, hour, draws, ethUsdPrice, k);
    }
  }

  /** After the initial load the three tracked chains are in step. */
  lemma InitialLoadInStep(d: Dashboard, now: int, hourOf: int -> int, draws: seq<seq<Draws>>)
    requires WellFormed(d)
    requires |draws| == 3
    requires forall k, j :: 0 <= k < |draws| && 0 <= j < |draws[k]| ==> ValidDraws(draws[k][j])
    requires forall k :: 0 <= k < |draws| ==> |draws[k]| == HistoryLimit
    ensures forall c :: c in Chains ==> InStep(InitialLoad(d, now, hourOf, draws), c)
  {
    LoadTrackedInStep(d, SeedSeries(Ethereum, now, hourOf, draws[0]),
      SeedSeries(Polygon, now, hourOf, draws[1]), SeedSeries(Arbitrum, now, hourOf, draws[2]));
  }

  /** Loading any three full series leaves the tracked chains in step. */
  lemma LoadTrackedInStep(d: Dashboard, s0: seq<Point>, s1: seq<Point>, s2: seq<Point>)
    requires WellFormed(d)
    requires |s0| == HistoryLimit && |s1| == HistoryLimit && |s2| == HistoryLimit
    ensures forall c :: c in Chains ==> InStep(LoadTracked(d, s0, s1, s2), c)
  {
    var r := LoadTracked(d, s0, s1, s2);
    SeededInStep(r, Ethereum, s0);
    SeededInStep(r, Polygon, s1);
    SeededInStep(r, Arbitrum, s2);
    forall c | c in Chains ensures InStep(r, c) {
      TrackedChain(c);
    }
  }

  /** The tracked chains are ethereum, polygon and arbitrum. */
  lemma TrackedChain(c: Chain)
    requires c in Chains
    ensures c == Ethereum || c == Polygon || c == Arbitrum
  {
  }

  /** A freshly seeded chain is in step. */
  lemma SeededInStep(r: Dashboard, chain: Chain, series: seq<Point>)
    requires |series| > 0 && Seeded(r, chain, series)
    ensures InStep(r, chain)
  {
  }

  // ---------------------------------------------------------------------------
  // The simulation
  // ---------------------------------------------------------------------------

  /** One chain's cost of sending `value` ETH, at the fixed 21000 gas. */
  function SimulationCost(prices: Prices, ethUsdPrice: real, value: real): (s: SimulationResult)
    ensures s.gasInGwei == prices.totalFee
    ensures s.gasInEth * GweiPerEth == prices.totalFee * SimulationGasLimit
    ensures s.gasCostUsd == s.gasInEth * ethUsdPrice
    ensures s.totalCost == value * ethUsdPrice + s.gasCostUsd
  {
    var gasInEth := prices.totalFee * SimulationGasLimit / GweiPerEth;
    var gasCostUsd := gasInEth * ethUsdPrice;
    SimulationResult(prices.totalFee, gasInEth, gasCostUsd, value * ethUsdPrice + gasCostUsd)
  }

  /** Whether the parsed transaction value passes the guard `isNaN(value) || value <= 0`. */
  predicate Simulatable(value: Option<real>) {
    value.Some? && value.value > 0.0
  }

  /** `runSimulation()`: a value that is NaN or not positive leaves the results as they were;
      otherwise every chain in `currentPrices` gets a cost, whether configured or not. */
  function RunSimulation(d: Dashboard): (r: Option<Dict<SimulationResult>>)
    ensures !Simulatable(d.transactionValue) ==> r == d.simulationResults
    ensures Simulatable(d.transactionValue) ==>
      && r.Some?
      && Keys(r.value) == Keys(d.currentPrices)
      && forall i :: 0 <= i < |r.value| ==>
           r.value[i].1 == SimulationCost(d.currentPrices[i].1, d.ethUsdPrice, d.transactionValue.value)
  {
    if !Simulatable(d.transactionValue) then d.simulationResults
    else
      var value := d.transactionValue.value;
      Some(seq(|d.currentPrices|, i requires 0 <= i < |d.currentPrices| =>
        (d.currentPrices[i].0, SimulationCost(d.currentPrices[i].1, d.ethUsdPrice, value))))
  }

  /** On every configured chain the inline simulation and `calculateTransactionCosts` agree
      on the total cost: both use a 21000 gas limit. */
  lemma SimulationAgreesWithService(d: Dashboard, c: Chain)
    requires Simulatable(d.transactionValue) && DistinctKeys(d.currentPrices)
    requires c in Keys(d.currentPrices) && NetworkConfigOf(c).Some?
    ensures var sim := RunSimulation(d).value;
      var svc := CalculateTransactionCosts(d.currentPrices, d.ethUsdPrice, d.transactionValue.value);
      && c in Keys(sim) && c in Keys(svc)
      && Get(sim, c).value.totalCost == Get(svc, c).value.totalCost
  {
    var sim := RunSimulation(d).value;
    var p := Get(d.currentPrices, c).value;
    SimulationAt(d, c);
    SameGasLimitSameCost(NetworkConfigOf(c).value, p, d.ethUsdPrice, d.transactionValue.value);
  }

  /** The simulated cost stored under a chain is the one computed from that chain's prices. */
  lemma SimulationAt(d: Dashboard, c: Chain)
    requires Simulatable(d.transactionValue) && DistinctKeys(d.currentPrices)
    requires c in Keys(d.currentPrices)
    ensures c in Keys(RunSimulation(d).value)
    ensures Get(RunSimulation(d).value, c)
      == Some(SimulationCost(Get(d.currentPrices, c).value, d.ethUsdPrice, d.transactionValue.value))
  {
    var sim := RunSimulation(d).value;
    var i :| 0 <= i < |Keys(d.currentPrices)| && Keys(d.currentPrices)[i] == c;
    GetEntry(d.currentPrices, i);
    assert sim[i].0 == Keys(sim)[i] == c;
    GetEntry(sim, i);
  }

  /** A configured network's cost and the simulation's agree on the total, since every
      configured network has the simulation's gas limit. */
  lemma SameGasLimitSameCost(config: NetworkConfig, p: Prices, ethUsdPrice: real, value: real)
    requires config.gasLimit as real == SimulationGasLimit
    ensures CostFor(config, p, ethUsdPrice, value).totalCost == SimulationCost(p, ethUsdPrice, value).totalCost
  {
  }

  /** What `runSimulation` depends on: a new value of any of these is a new callback, which
      re-triggers the live-mode effect. */
  datatype Inputs = Inputs(currentPrices: Dict<Prices>, ethUsdPrice: real, transactionValue: Option<real>)

  function InputsOf(d: Dashboard): Inputs {
    Inputs(d.currentPrices, d.ethUsdPrice, d.transactionValue)
  }

  /** The effect after a render whose previous render had dependencies `previous` (`None` on
      mount): it runs when the mode or the simulation's inputs changed, and then simulates
      only in live mode. */
  function AfterRender(previous: Option<(Mode, Inputs)>, d: Dashboard): (r: Dashboard)
    ensures r.(simulationResults := d.simulationResults) == d
    ensures d.simulationMode == Simulation ==> r == d
    ensures previous == Some((d.simulationMode, InputsOf(d))) ==> r == d
    ensures d.simulationMode == Live && previous != Some((d.simulationMode, InputsOf(d)))
      ==> r.simulationResults == RunSimulation(d)
    ensures d.simulationMode == Live && previous != Some((d.simulationMode, InputsOf(d))) && Simulatable(d.transactionValue)
      ==> r.simulationResults.Some? && Keys(r.simulationResults.value) == Keys(d.currentPrices)
  {
    if previous != Some((d.simulationMode, InputsOf(d))) && d.simulationMode == Live then
      d.(simulationResults := RunSimulation(d))
    else d
  }
}

=== FILE: mock_provider.dfy ===
/** The simulated real-time connection (`src/services/MockWebSocketProvider.js`) as an
    explicit state machine.

    The class's mutable fields become a `Provider` record and each method a function from
    the record before the call to the record after it, together with the callback
    invocations the call makes. `setTimeout` becomes a queue of pending timers that a
    separate `Fire` step runs; `Math.random()` and `Date.now()` are arguments. */
module MockWebSocketProvider {

  /** A registered callback, identified as JavaScript compares functions: by reference. */
  type Listener = nat

  datatype Event =
    | Connected(timestamp: int, url: string)
    | Disconnected(timestamp: int)
    | Error(message: string, timestamp: int)

  /** One callback invocation `listener(event)`. */
  datatype Delivery = Delivery(listener: Listener, event: Event)

  /** What a pending timer does when it fires: deliver the `connected` event, or call
      `connect()` again. */
  datatype Action = EmitConnected | Reconnect

  datatype Timer = Timer(delayMs: real, action: Action)

  datatype Provider = Provider(
    url: string,
    listeners: seq<Listener>,
    connected: bool,
    reconnectAttempts: int,
    maxReconnectAttempts: int,
    pending: seq<Timer>)

  /** A provider after a call, with the callbacks the call invoked, in order. */
  datatype Outcome = Outcome(provider: Provider, emitted: seq<Delivery>)

  const MaxReconnectAttempts: int := 5
  const ConnectionLost: string := "Connection lost"
  /** The linear backoff step: reconnect attempt n waits n times this long. */
  const BackoffStepMs: real := 2000.0

  /** `listeners.forEach(listener => listener(e))`. */
  function Broadcast(listeners: seq<Listener>, e: Event): (ds: seq<Delivery>)
    ensures |ds| == |listeners|
    ensures forall i :: 0 <= i < |ds| ==> ds[i] == Delivery(listeners[i], e)
  {
    seq(|listeners|, i requires 0 <= i < |listeners| => Delivery(listeners[i], e))
  }

  /** The facts every reachable provider satisfies: the counter is 0 whenever the flag is
      set and never exceeds 1, and every pending timer carries one of the two delays the
      code can schedule. */
  predicate Inv(p: Provider) {
    && p.maxReconnectAttempts == MaxReconnectAttempts
    && 0 <= p.reconnectAttempts <= 1
    && (p.connected ==> p.reconnectAttempts == 0)
    && forall i :: 0 <= i < |p.pending| ==> WellScheduled(p.pending[i])
  }

  predicate WellScheduled(t: Timer) {
    match t.action
    case EmitConnected => 500.0 <= t.delayMs < 1500.0
    case Reconnect => t.delayMs == BackoffStepMs
  }

  /** `new MockWebSocketProvider(url)`. */
  function New(url: string): (p: Provider)
    ensures !p.connected && p.reconnectAttempts == 0
    ensures p.maxReconnectAttempts == MaxReconnectAttempts
    ensures p.listeners == [] && p.pending == []
    ensures Inv(p)
  {
    Provider(url, [], false, 0, MaxReconnectAttempts, [])
  }

  /** `isConnected()`. */
  function IsConnected(p: Provider): (b: bool)
    ensures b <==> p.connected
  {
    p.connected
  }

  /** `connect()`: the flag is set and the counter cleared at once; the `connected` event is
      only scheduled, `draw * 1000 + 500` milliseconds ahead. No call is made now. */
  function Connect(p: Provider, draw: real): (r: Provider)
    requires 0.0 <= draw < 1.0
    ensures IsConnected(r) && r.reconnectAttempts == 0
    ensures r.url == p.url && r.listeners == p.listeners
    ensures r.maxReconnectAttempts == p.maxReconnectAttempts
    ensures |r.pending| == |p.pending| + 1 && r.pending[..|p.pending|] == p.pending
    ensures r.pending[|p.pending|].action == EmitConnected
    ensures 500.0 <= r.pending[|p.pending|].delayMs < 1500.0
    ensures p.maxReconnectAttempts == MaxReconnectAttempts && (forall i :: 0 <= i < |p.pending| ==> WellScheduled(p.pending[i]))
            ==> Inv(r)
  {
    var r := p.(connected := true, reconnectAttempts := 0, pending := p.pending + [Timer(draw * 1000.0 + 500.0, EmitConnected)]);
    assert r.pending[..|p.pending|] == p.pending;
    r
  }

  /** `on(event, callback)`: the name is ignored and the same callback may be added twice. */
  function On(p: Provider, event: string, callback: Listener): (r: Provider)
    ensures r.listeners == p.listeners + [callback]
    ensures r.(listeners := p.listeners) == p
    ensures Inv(p) ==> Inv(r)
  {
    p.(listeners := p.listeners + [callback])
  }

  /** Every listener except `callback`, in their original order. */
  function RemoveAll(ls: seq<Listener>, callback: Listener): (r: seq<Listener>)
    ensures callback !in r
    ensures forall x :: x != callback ==> multiset(r)[x] == multiset(ls)[x]
    ensures |r| == |ls| - multiset(ls)[callback]
  {
    if ls == [] then []
    else
      assert ls == [ls[0]] + ls[1..];
      if ls[0] == callback then RemoveAll(ls[1..], callback)
      else [ls[0]] + RemoveAll(ls[1..], callback)
  }

  /** Removal commutes with concatenation, so it keeps the survivors' relative order. */
  lemma {:induction false} RemoveAllAppend(a: seq<Listener>, b: seq<Listener>, callback: Listener)
    ensures RemoveAll(a + b, callback) == RemoveAll(a, callback) + RemoveAll(b, callback)
  {
    if a != [] {
      assert (a + b)[0] == a[0];
      assert (a + b)[1..] == a[1..] + b;
      RemoveAllAppend(a[1..], b, callback);
      if a[0] != callback {
        assert RemoveAll(a + b, callback) == [a[0]] + RemoveAll(a[1..] + b, callback);
      }
    } else {
      assert a + b == b;
    }
  }

  /** Removing a callback that was never registered changes nothing. */
  lemma {:induction false} RemoveAllAbsent(ls: seq<Listener>, callback: Listener)
    requires callback !in ls
    ensures RemoveAll(ls, callback) == ls
  {
    if ls != [] {
      RemoveAllAbsent(ls[1..], callback);
      assert ls == [ls[0]] + ls[1..];
    }
  }

  /** `off(event, callback)`: every registration of `callback` goes, the name is ignored. */
  function Off(p: Provider, event: string, callback: Listener): (r: Provider)
    ensures callback !in r.listeners
    ensures forall x :: x != callback ==> multiset(r.listeners)[x] == multiset(p.listeners)[x]
    ensures r.listeners == RemoveAll(p.listeners, callback)
    ensures r.(listeners := p.listeners) == p
    ensures Inv(p) ==> Inv(r)
  {
    p.(listeners := RemoveAll(p.listeners, callback))
  }

  /** `disconnect()`: unguarded; the flag drops, every listener hears `disconnected`, and the
      counter and any pending reconnect are left alone. */
  function Disconnect(p: Provider, now: int): (r: Outcome)
    ensures !IsConnected(r.provider)
    ensures r.provider.(connected := p.connected) == p
    ensures r.emitted == Broadcast(p.listeners, Disconnected(now))
    ensures Inv(p) ==> Inv(r.provider)
  {
    Outcome(p.(connected := false), Broadcast(p.listeners, Disconnected(now)))
  }

  /** `simulateDisconnection()`: a no-op while disconnected; otherwise the flag drops, every
      listener hears one `error`, and below the cap the counter goes up by one and a
      reconnect is scheduled `2000 * reconnectAttempts` milliseconds ahead. */
  function SimulateDisconnection(p: Provider, now: int): (r: Outcome)
    ensures !p.connected ==> r == Outcome(p, [])
    ensures p.connected ==> !IsConnected(r.provider)
    ensures p.connected ==> r.emitted == Broadcast(p.listeners, Error(ConnectionLost, now))
    ensures r.provider.url == p.url && r.provider.listeners == p.listeners
    ensures r.provider.maxReconnectAttempts == p.maxReconnectAttempts
    ensures p.connected && p.reconnectAttempts < p.maxReconnectAttempts ==>
      && r.provider.reconnectAttempts == p.reconnectAttempts + 1
      && r.provider.pending == p.pending + [Timer(BackoffStepMs * r.provider.reconnectAttempts as real, Reconnect)]
    ensures p.connected && p.reconnectAttempts >= p.maxReconnectAttempts ==>
      r.provider.reconnectAttempts == p.reconnectAttempts && r.provider.pending == p.pending
    ensures Inv(p) ==> Inv(r.provider)
  {
    if !p.connected then Outcome(p, [])
    else
      var emitted := Broadcast(p.listeners, Error(ConnectionLost, now));
      if p.reconnectAttempts < p.maxReconnectAttempts then
        var attempts := p.reconnectAttempts + 1;
        var timer := Timer(BackoffStepMs * attempts as real, Reconnect);
        Outcome(p.(connected := false, reconnectAttempts := attempts, pending := p.pending + [timer]), emitted)
      else
        Outcome(p.(connected := false), emitted)
  }

  /** The pending timers without the one at `i`. */
  function Without(ts: seq<Timer>, i: int): (r: seq<Timer>)
    requires 0 <= i < |ts|
    ensures |r| == |ts| - 1
    ensures forall j :: 0 <= j < |r| ==> r[j] == (if j < i then ts[j] else ts[j + 1])
  {
    ts[..i] + ts[i + 1..]
  }

  /** The event loop runs the pending timer at `i`. A `connected` event reaches the listeners
      registered at that moment, not those registered when `connect()` was called; a
      reconnect timer calls `connect()`, whose own delay is drawn from `draw`. */
  function Fire(p: Provider, i: int, now: int, draw: real): (r: Outcome)
    requires 0 <= i < |p.pending| && 0.0 <= draw < 1.0
    ensures p.pending[i].action == EmitConnected ==>
      && r.emitted == Broadcast(p.listeners, Connected(now, p.url))
      && r.provider == p.(pending := Without(p.pending, i))
    ensures p.pending[i].action == Reconnect ==>
      && r.emitted == []
      && IsConnected(r.provider) && r.provider.reconnectAttempts == 0
      && r.provider.listeners == p.listeners
      && r.provider.url == p.url && r.provider.maxReconnectAttempts == p.maxReconnectAttempts
      && |r.provider.pending| == |p.pending|
      && r.provider.pending[..|p.pending| - 1] == Without(p.pending, i)
      && r.provider.pending[|p.pending| - 1].action == EmitConnected
      && 500.0 <= r.provider.pending[|p.pending| - 1].delayMs < 1500.0
    ensures Inv(p) ==> Inv(r.provider)
  {
    var rest := Without(p.pending, i);
    match p.pending[i].action
    case EmitConnected =>
      Outcome(p.(pending := rest), Broadcast(p.listeners, Connected(now, p.url)))
    case Reconnect =>
      Outcome(Connect(p.(pending := rest), draw), [])
  }

  // ---------------------------------------------------------------------------
  // Reachable states
  // ---------------------------------------------------------------------------

  /** One thing that can happen to a provider: a call of one of its methods, or the event
      loop firing the pending timer at `index` (nothing fires if there is none there). */
  datatype Step =
    | DoConnect(draw: real)
    | DoOn(event: string, callback: Listener)
    | DoOff(event: string, callback: Listener)
    | DoDisconnect(now: int)
    | DoSimulateDisconnection(now: int)
    | DoFire(index: nat, now: int, draw: real)

  predicate ValidStep(s: Step) {
    match s
    case DoConnect(draw) => 0.0 <= draw < 1.0
    case DoFire(_, _, draw) => 0.0 <= draw < 1.0
    case _ => true
  }

  function Apply(p: Provider, s: Step): (r: Outcome)
    requires ValidStep(s)
    ensures Inv(p) ==> Inv(r.provider)
  {
    match s
    case DoConnect(draw) => Outcome(Connect(p, draw), [])
    case DoOn(event, callback) => Outcome(On(p, event, callback), [])
    case DoOff(event, callback) => Outcome(Off(p, event, callback), [])
    case DoDisconnect(now) => Disconnect(p, now)
    case DoSimulateDisconnection(now) => SimulateDisconnection(p, now)
    case DoFire(index, now, draw) =>
      if index < |p.pending| then Fire(p, index, now, draw) else Outcome(p, [])
  }

  /** The provider after a sequence of steps. */
  function Run(p: Provider, steps: seq<Step>): Provider
    requires forall k :: 0 <= k < |steps| ==> ValidStep(steps[k])
    decreases |steps|
  {
    if steps == [] then p else Run(Apply(p, steps[0]).provider, steps[1..])
  }

  lemma {:induction false} RunPreservesInv(p: Provider, steps: seq<Step>)
    requires Inv(p)
    requires forall k :: 0 <= k < |steps| ==> ValidStep(steps[k])
    ensures Inv(Run(p, steps))
    decreases |steps|
  {
    if steps != [] {
      RunPreservesInv(Apply(p, steps[0]).provider, steps[1..]);
    }
  }

  /** In every reachable state the flag implies a cleared counter, the counter stays at or
      below 1 and so strictly below the cap of 5, and every pending reconnect waits exactly
      2000 ms: since every reconnect goes through `connect()`, the backoff never grows. */
  lemma Reachable(url: string, steps: seq<Step>)
    requires forall k :: 0 <= k < |steps| ==> ValidStep(steps[k])
    ensures Inv(Run(New(url), steps))
    ensures var p := Run(New(url), steps);
      && (IsConnected(p) ==> p.reconnectAttempts == 0)
      && 0 <= p.reconnectAttempts <= 1 < p.maxReconnectAttempts == MaxReconnectAttempts
      && forall i :: 0 <= i < |p.pending| && p.pending[i].action == Reconnect ==>
           p.pending[i].delayMs == BackoffStepMs
  {
    RunPreservesInv(New(url), steps);
  }

  /** From any state satisfying the invariant (every reachable state, by `Reachable`), losing
      the connection always takes the branch below the cap and always schedules the
      reconnect exactly 2000 ms ahead. */
  lemma CapNeverBinds(p: Provider, now: int)
    requires Inv(p) && IsConnected(p)
    ensures p.reconnectAttempts < p.maxReconnectAttempts
    ensures SimulateDisconnection(p, now).provider.reconnectAttempts == 1
    ensures SimulateDisconnection(p, now).provider.pending == p.pending + [Timer(BackoffStepMs, Reconnect)]
  {
    var r := SimulateDisconnection(p, now).provider;
    assert r.reconnectAttempts == 1;
    assert BackoffStepMs * r.reconnectAttempts as real == BackoffStepMs;
  }

  /** A listener registered after `connect()` but before its timer fires still hears the
      `connected` event, exactly once. */
  lemma LateListenerHearsConnected(p: Provider, draw: real, event: string, callback: Listener, now: int, draw': real)
    requires 0.0 <= draw < 1.0 && 0.0 <= draw' < 1.0
    requires callback !in p.listeners
    ensures var q := On(Connect(p, draw), event, callback);
      && |p.pending| < |q.pending|
      && multiset(Fire(q, |p.pending|, now, draw').emitted)[Delivery(callback, Connected(now, p.url))] == 1
  {
    var q := On(Connect(p, draw), event, callback);
    var ds := Fire(q, |p.pending|, now, draw').emitted;
    assert ds == Broadcast(p.listeners, Connected(now, p.url)) + [Delivery(callback, Connected(now, p.url))];
    assert Delivery(callback, Connected(now, p.url)) !in Broadcast(p.listeners, Connected(now, p.url));
  }
}

=== FILE: numbers.dfy ===
/** Numeric conventions of the source, stated over exact reals.

    `Number.prototype.toFixed(2)` followed by `parseFloat` is modelled as exact decimal
    rounding to two places, and the IEEE-754 special values that a JavaScript division can
    produce are kept as an explicit `JsNumber`. */
module Numbers {

  function Max(a: real, b: real): (m: real)
    ensures m >= a && m >= b
    ensures m == a || m == b
  {
    if a >= b then a else b
  }

  /** `parseFloat(x.toFixed(2))`: the nearest whole number of cents, a tie going away from zero. */
  function Round2(x: real): (r: real)
    ensures x - 0.005 <= r <= x + 0.005
    ensures x >= 0.0 ==> x - 0.005 < r
    ensures IsCents(r)
    ensures x >= 0.0 ==> r >= 0.0
  {
    if x >= 0.0 then
      var k := (x * 100.0 + 0.5).Floor;
      assert (k as real / 100.0) * 100.0 == k as real;
      k as real / 100.0
    else
      var k := ((-x) * 100.0 + 0.5).Floor;
      assert (-(k as real / 100.0)) * 100.0 == (-k) as real;
      -(k as real / 100.0)
  }

  /** A value that is a whole number of hundredths. */
  predicate IsCents(x: real) {
    (x * 100.0).Floor as real == x * 100.0
  }

  /** Rounding never moves a non-negative value past a whole number of cents it lies above. */
  lemma Round2AtLeast(x: real, c: real)
    requires IsCents(c) && 0.0 <= c <= x
    ensures c <= Round2(x)
  {
    var k := (c * 100.0).Floor;
    assert k as real <= x * 100.0;
    assert k <= (x * 100.0 + 0.5).Floor;
  }

  lemma Round2Monotone(x: real, y: real)
    requires 0.0 <= x <= y
    ensures Round2(x) <= Round2(y)
  {
    assert (x * 100.0 + 0.5).Floor <= (y * 100.0 + 0.5).Floor;
  }

  /** Rounding the sum and summing the roundings differ by at most one cent. */
  lemma Round2OfSum(a: real, b: real)
    requires a >= 0.0 && b >= 0.0
    ensures -0.01 <= Round2(a + b) - (Round2(a) + Round2(b)) <= 0.01
  {
    var ka := (a * 100.0 + 0.5).Floor;
    var kb := (b * 100.0 + 0.5).Floor;
    var ks := ((a + b) * 100.0 + 0.5).Floor;
    assert Round2(a) == ka as real / 100.0;
    assert Round2(b) == kb as real / 100.0;
    assert Round2(a + b) == ks as real / 100.0;
    assert -1 <= ks - ka - kb <= 1;
  }

  /** A JavaScript number as produced by the source's divisions: a finite value or one of the
      IEEE-754 specials. Signed zero is not distinguished. */
  datatype JsNumber = Finite(value: real) | PosInfinity | NegInfinity | NaN

  /** JavaScript `a / b` on finite operands. */
  function Divide(a: real, b: real): (q: JsNumber)
    ensures q.Finite? <==> b != 0.0
    ensures q.Finite? ==> q.value * b == a
    ensures q.NaN? <==> a == 0.0 && b == 0.0
    ensures q.PosInfinity? <==> a > 0.0 && b == 0.0
  {
    if b != 0.0 then Finite(a / b)
    else if a > 0.0 then PosInfinity
    else if a < 0.0 then NegInfinity
    else NaN
  }

  /** JavaScript `x > c` for a finite constant `c`: every comparison with NaN is false. */
  function GreaterThan(x: JsNumber, c: real): (b: bool)
    ensures x.NaN? ==> !b
    ensures x.Finite? ==> (b <==> x.value > c)
    ensures !x.Finite? ==> (b <==> x.PosInfinity?)
  {
    match x
    case Finite(v) => v > c
    case PosInfinity => true
    case NegInfinity => false
    case NaN => false
  }
}

=== FILE: wrappers.dfy ===
/** The optional value used wherever the source reads a property that may be
    `undefined` (a missing object key, an absent table entry). */
module Wrappers {

  datatype Option<+T> = None | Some(value: T) {

    /** The wrapped value, or `default` when there is none (JavaScript's `x || default`
        for values that are never falsy). */
    function GetOr(default: T): T {
      match this
      case Some(v) => v
      case None => default
    }
  }
}
